=== FILE: README.md ===
# Memory card game: the match-resolution rules

This project models the rules engine of a small memory card game. The game exists in two builds:

- `js/memory.js` is the legacy build, with `Board`, `Card`, `HUD` and shared globals.
- `src/js/memory.js` is the newer build, with `Memory.Table`, `Memory.Card`, `Memory.GUI` and an ENDED table state.

Both builds are modelled as one state machine over an immutable `Round` record. The record holds:

- the cards: index, face key, and state DEFAULT / FLIPPED / COLLECTED;
- `flippedCards` and `collectedCards`;
- the reveal timers still pending and whether the resolution timer is pending;
- `numCardsTotal`, `numMoves` and `comboLength`;
- the HUD/GUI score;
- the table state: DEFAULT / LOCKED, plus ENDED in the newer build.

The two `setTimeout` callbacks become explicit events:

- `Click(slot)`: a click on a card.
- `RevealDone`: the 120 ms reveal of the oldest pending flip completes.
- `Tick`: one frame's `update`.
- `ResolveDone`: the 2000 ms pair resolution fires.

A card is named by its slot, its position in creation order. The slot stands for the object identity that `===` compares in the source.

## Modules

| file | module | contents |
|---|---|---|
| `collection.dfy` | `Collections` | `Collection`: add/get/remove/clear/count, with `undefined` as `None` |
| `shuffle.dfy` | `Shuffling` | the Fisher–Yates `shuffle`, with `Math.random()` results passed in as draws |
| `cards.dfy` | `Cards` | card states and the per-card transitions |
| `deck.dfy` | `Deck` | the deck literal, `Board.create` / `Table.create`, faces and indices |
| `score.dfy` | `Score` | `addPoints` and the victory bonus table |
| `table.dfy` | `Table` | the round, `flip`, `collect`, `flipBack`, `update`, the resolution, both victory checks, events |
| `rules.dfy` | `Rules` | the round invariant, its preservation, victory facts, and the corrected flip guard |
| `races.dfy` | `Races` | concrete runs: the flip-guard races, ordinary play, and the two victory checks |

The main guarantee is stated twice:

- `Rules.SequentialPlayKeepsInv`: at most two cards are ever flipped when each reveal completes before the next click.
- `Rules.GuardedPlayKeepsInv`: the same holds for every interleaving once the flip guard also counts pending reveals.

`Races` shows what the guard as written lets through.

A few facts about the code shape the model:

- Both builds compute the card index as `(i * rows) + j` (js/memory.js:245, src/js/memory.js:61). Indices collide when there are more columns than rows and at least two rows (a 2 × 3 board, for one). With at least two rows, only a square board gives every card its position as its index; on a single row the index is always the position.
- Only the newer build has an ENDED state (src/js/memory.js:21-25, 109).
- A mismatch costs no points in either build: `flipCardsBack` only resets the combo (js/memory.js:321-326, src/js/memory.js:143-148).

## Model

| member | source | states |
|---|---|---|
| Collections.Empty | js/memory.js:63-65 | a new collection holds no items |
| Collections.Count | js/memory.js:107-109 | `count()` is the number of items, every copy of a repeated item included |
| Collections.Get | js/memory.js:80-82 | `get(i)` yields `items[i]` exactly when `0 <= i < count()`, and `undefined` otherwise |
| Collections.Add | js/memory.js:71-73 | `add` grows the count by one, `get(old count)` is the new item, and earlier items keep their positions |
| Collections.Clear | js/memory.js:99-101 | after `clear` the count is 0 and `get(0)` is `undefined` |
| Collections.Remove | js/memory.js:88-94 | `remove` keeps every other item in its original order, never grows the collection, changes nothing when the item is absent, and shrinks it when the item is present |
| Collections.SpliceForward | js/memory.js:89-93 | the forward splice loop leaves the same non-matching items in the same order as a filter, and is shorter whenever the item occurs |
| Collections.SpliceForwardRemovesSpacedCopies | js/memory.js:89-93 | when no two copies are neighbours, the loop removes every copy and equals the filter |
| Collections.RemoveKeepsSecondOfAdjacentCopies | js/memory.js:89-93 | with two adjacent copies, the splice skips the second one and it survives `remove` |
| Shuffling.SwapIndex | js/memory.js:35 | `Math.floor(Math.random() * counter)` is a valid position below `counter` |
| Shuffling.Swap | js/memory.js:37-39 | the three-assignment swap exchanges two positions, leaves the rest alone, and keeps the multiset |
| Shuffling.Shuffle | js/memory.js:30-43 | `shuffle` returns a permutation of its input (same length, same multiset); the last slot gets the item at the first draw's index |
| Cards.Reveal | js/memory.js:383-385 | the reveal timer turns the card FLIPPED and keeps its face and index |
| Cards.FlipBack | js/memory.js:394-400 | `flipBack` turns a FLIPPED card DEFAULT and is a no-op in any other state |
| Cards.MarkCollected | js/memory.js:405-412 | `collect` leaves the card COLLECTED, and is a no-op on a card already COLLECTED |
| Deck.CellIndex | js/memory.js:245 | see `Deck.CellIndexDecodes` |
| Deck.CellIndexDecodes | js/memory.js:245 | the index `(i * rows) + j` decodes back to its cell by division and remainder by `rows` whenever `j < rows`, so with at most `rows` columns no two cells share an index |
| Deck.Popped | js/memory.js:246 | the first `n` results of `deck.pop()` are the deck read backwards from its end |
| Deck.SlotOf | js/memory.js:243-244 | the nested loops visit each cell (i, j) at a creation position below rows × cols |
| Deck.PlaceRow | js/memory.js:244-250 | one pass of the inner loop appends `cols` new DEFAULT cards with the next popped faces and the as-written index |
| Deck.Layout | js/memory.js:243-253 | the loops make exactly rows × cols DEFAULT cards with `numCardsTotal` = rows × cols; their faces are the popped faces in order, and cell (i, j) gets index `i*rows + j` |
| Deck.PoppedIsDeckTail | js/memory.js:246 | the faces popped so far are, as a multiset, the tail of the deck |
| Deck.LiteralDeckPairs | js/memory.js:230-233 | the deck literal holds each of the faces 1..8 exactly twice, and nothing else |
| Deck.SquareIndexIsSlot | js/memory.js:245 | on a square board the as-written index of each cell equals its creation position |
| Deck.NonSquareIndexCollides | js/memory.js:245 | on a 2 × 3 board two cells receive the same index |
| Deck.LayoutFaces | src/js/memory.js:48-69 | laid out from any permutation of the literal deck, no face appears more than twice and only faces 1..8 appear; with 16 cards each appears exactly twice |
| Deck.SquareLayoutIndices | src/js/memory.js:59-61 | on a square board every card's index is its position, so indices are distinct |
| Deck.CreateLegacy | js/memory.js:230-253 | `Board.create` makes rows × cols DEFAULT cards with `numCardsTotal` = rows × cols; faces appear at most twice, exactly twice on 4 × 4; indices are distinct when square |
| Deck.CreateCurrent | src/js/memory.js:47-70 | `Table.create` gives the same guarantees from any permutation returned by the engine's shuffle |
| Score.AddPoints | js/memory.js:463-466 | `addPoints(a)` moves the score by exactly `a`, for every score and amount, so there is no floor and no cap |
| Score.AccumulateIsSum | src/js/memory.js:291-294 | any run of `addPoints` calls ends at start + the sum of the amounts |
| Score.VictoryBonus | js/memory.js:277-288 | the bonus is a multiple of 100, at most 500; it is 0 exactly from 50 moves on and 500 exactly under 30 moves |
| Score.BonusMatchesBands | src/js/memory.js:94-105 | the step table equals a closed form that loses 100 points per started band of five moves past 25 |
| Score.BonusNonIncreasing | src/js/memory.js:94-105 | fewer moves never earn a smaller bonus |
| Score.BonusEdges | js/memory.js:278-288 | the band edges 29/30, 34/35 and 49/50 fall where the table says |
| Table.Start | js/memory.js:220-223 | a new round has nothing flipped or collected, no timers pending, zero counters and score, and DEFAULT state |
| Table.Flip | js/memory.js:375-389 | an accepted click (DEFAULT card, fewer than two flipped) adds exactly one move and starts one reveal timer, and nothing else changes; a rejected click changes nothing |
| Table.FlipAccepted | js/memory.js:376 | see `Table.GuardIgnoresPendingReveals`: the guard's verdict does not depend on the pending reveals |
| Table.GuardIgnoresPendingReveals | js/memory.js:376 | the click-time guard decides the same however many reveals are pending, including one for the clicked card itself |
| Table.CompleteReveal | src/js/memory.js:208-213 | the reveal turns its card FLIPPED and appends it to `flippedCards`, keeping every earlier item in place; only the pending reveals, the cards and `flippedCards` change, and among the cards only the revealed one |
| Table.CollectCard | src/js/memory.js:231-238 | `collect` appends a card not yet COLLECTED to `collectedCards` once and marks it COLLECTED; on a COLLECTED card it changes nothing |
| Table.CollectAll | js/memory.js:310-312 | the loop leaves every listed card COLLECTED with its face and index kept, and every other card untouched; `collectedCards` only grows, and only by listed cards; nothing else in the round changes |
| Table.CollectAllAppends | js/memory.js:405-411 | the loop appends each listed card that was not yet COLLECTED to `collectedCards` exactly once, even when it is listed twice, and appends nothing else |
| Table.CollectCardAppends | js/memory.js:405-411 | one `collect` adds one copy of its card to `collectedCards` when the card was not COLLECTED, and changes no other card's count |
| Table.FlipAllBack | js/memory.js:322-324 | the loop applies `flipBack` to every listed card and leaves everything else untouched |
| Table.CompareCards | js/memory.js:301-303 | see `Rules.ResolveShape`: comparing the keys of items 0 and 1 selects the match or the mismatch outcome |
| Table.CollectCards | js/memory.js:309-315 | a match collects the listed cards, increments the combo, and adds 100 × the new combo; only the cards, `collectedCards`, the combo and the score change |
| Table.CollectCardsOutcome | js/memory.js:309-315 | every listed card ends COLLECTED with its face and index kept, every other card is untouched, and each listed card not yet COLLECTED is appended to `collectedCards` exactly once |
| Table.FlipCardsBack | src/js/memory.js:143-148 | a mismatch applies `flipBack` to every listed card, leaves every other card untouched, resets the combo, and changes nothing else, so the score and `collectedCards` stay |
| Table.Resolve | src/js/memory.js:81-89 | with two flipped cards: equal keys collect every flipped card, increment the combo and score 100 × combo; unequal keys flip every card back, reset the combo and keep the score; either way `flippedCards` ends empty and the state DEFAULT; with fewer, the callback throws and changes nothing; the move count, the pending reveals and `numCardsTotal` never change |
| Table.ResolveOutcome | src/js/memory.js:82-88 | with two or more flipped cards: on a match every flipped card is collected and each one not yet COLLECTED is appended to `collectedCards` exactly once; on a mismatch every flipped card goes through `flipBack` and `collectedCards` is untouched; every card not flipped is untouched either way |
| Table.PairCheck | src/js/memory.js:79-80 | the pair check locks and starts the resolution timer exactly when two cards are flipped in DEFAULT; otherwise it changes nothing |
| Table.AwardBonus | js/memory.js:289-291 | the bonus is added only when positive, so the score grows by exactly the table value |
| Table.LegacyCollectedLength | js/memory.js:276 | `collectedCards.length` never equals the number of items the collection holds: it is `undefined` |
| Table.LegacyVictoryFires | js/memory.js:276 | the legacy victory condition never holds |
| Table.VictoryFires | src/js/memory.js:93 | see `Rules.VictoryMeansAllCollected`: under the invariant the condition means every card is COLLECTED |
| Table.VictoryCheck | src/js/memory.js:93-109 | newer build: when not ENDED and every card is collected, add the bonus and set ENDED, otherwise change nothing; legacy build: never changes the state |
| Table.Update | js/memory.js:259-293 | `update` changes no card, collection or counter; it ends LOCKED exactly when it was LOCKED or locks a fresh pair, unless the newer victory fires; an ENDED table under the newer build is left as it is |
| Table.Step | src/js/memory.js:201-215 | only an accepted click counts a move; the score moves only by a resolution's combo points or by the newer build's victory bonus on the ENDED transition |
| Rules.StartInv | js/memory.js:495-496 | a freshly created round satisfies the round invariant |
| Rules.InvBoundsFlipped | js/memory.js:376 | under the invariant at most two cards are flipped, counting those on their way up |
| Rules.ClickKeepsInv | js/memory.js:375-389 | a click with no reveal pending keeps the invariant |
| Rules.RevealKeepsInv | js/memory.js:382-387 | a completed reveal keeps the invariant |
| Rules.TickKeepsInv | js/memory.js:259-293 | `update` keeps the invariant under either build |
| Rules.LockedNotAllCollected | src/js/memory.js:79-93 | a locked table holds two face-up cards, so the victory check cannot fire while locked |
| Rules.CollectPair | js/memory.js:309-312 | collecting two distinct uncollected cards appends both to `collectedCards` and marks both COLLECTED |
| Rules.FlipPairBack | js/memory.js:321-324 | flipping back two cards applies `flipBack` to each |
| Rules.ResolveShape | js/memory.js:264-272 | under the invariant a pending resolution sees exactly two distinct FLIPPED cards, and resolves to the spelled-out match or mismatch round |
| Rules.MatchedKeepsInv | src/js/memory.js:82-88 | a match keeps the invariant: cards are collected two at a time, so the collected count stays even, and the score stays non-negative |
| Rules.MismatchedKeepsInv | src/js/memory.js:84-88 | a mismatch keeps the invariant |
| Rules.ResolveKeepsInv | js/memory.js:264-272 | the resolution keeps the invariant |
| Rules.StepKeepsInv | src/js/memory.js:75-115 | every event keeps the invariant when each reveal completes before the next click |
| Rules.SequentialPlayKeepsInv | src/js/memory.js:202-213 | played one reveal at a time, any run keeps the invariant, so never more than two cards are flipped |
| Rules.EndedIsFinal | src/js/memory.js:79-93 | in the newer build no event moves an ENDED table out of ENDED or changes its score |
| Rules.VictoryMeansAllCollected | src/js/memory.js:93 | when the collected count reaches `numCardsTotal`, every card is COLLECTED, none is flipped and no reveal is pending |
| Rules.EndedIsFrozen | src/js/memory.js:79-109 | from a round satisfying the invariant, in the newer build every event that can happen leaves an ENDED round exactly as it is |
| Rules.BonusAwardedOnce | src/js/memory.js:93-109 | from an ENDED round satisfying the invariant, every later run of events, in any interleaving, ends at the same round, so the bonus is awarded at most once |
| Rules.VictoryEndsRound | src/js/memory.js:93-109 | with every card collected in DEFAULT, one `update` of the newer build ends the round and adds the step-table bonus |
| Rules.LegacyBonusNeverAwarded | js/memory.js:276 | the legacy victory condition never holds, so `update` never adds a bonus and never ends the round |
| Rules.FlipGuarded | src/js/memory.js:202 | the corrected guard accepts a click like `flip` does and refuses it otherwise |
| Rules.GuardsAgreeWithoutPendingReveals | js/memory.js:376 | with no reveal pending, the corrected guard and the guard as written accept the same clicks |
| Rules.GuardedClickKeepsInv | src/js/memory.js:202 | a click under the corrected guard keeps the invariant even with reveals pending |
| Rules.GuardedStepKeepsInv | src/js/memory.js:201-215 | with the corrected guard every event keeps the invariant |
| Rules.GuardedPlayKeepsInv | src/js/memory.js:201-215 | with the corrected guard, any interleaving of clicks and timers keeps at most two cards flipped |
| Races.ThirdCardAccepted | js/memory.js:375-387 | three clicks before any reveal completes are all accepted as three moves, and leave three cards in `flippedCards` |
| Races.ThreeUpIsStuck | js/memory.js:259-273 | with three cards flipped the round is stuck: every possible event leaves it unchanged, and it breaks the invariant |
| Races.ThirdCardSweptIntoMatch | js/memory.js:261-272 | a third card revealed after the lock is collected along with the pair, leaving an odd number of cards collected |
| Races.SameCardPairsWithItself | src/js/memory.js:201-213 | two quick clicks on one card list it twice in `flippedCards`, and it is collected and scored as a pair with itself |
| Races.GuardedRefusesRaces | src/js/memory.js:202 | the corrected guard refuses a second click on a card already on its way up, and refuses a third card |
| Races.MatchThenMismatch | src/js/memory.js:123-148 | on a 4 × 4 board a matching pair scores 100 at combo 1, and a following mismatch flips both cards back, resets the combo and keeps the score |
| Races.LegacyMissesBonus | js/memory.js:276-291 | on a cleared board after 20 moves the legacy `update` changes nothing, while the newer one adds 500 and ends the round |

## Left out

- Phaser sprites, visibility toggles, animations, text rendering and x/y coordinates are presentation calls into an engine that is not part of this model.
- `setTimeout` wall-clock timing is replaced by the `RevealDone` and `ResolveDone` events. The enabling condition of `ResolveDone` encodes one timing fact: every reveal pending at the lock fires before the 2000 ms resolution.
- `Math.random` becomes a sequence of draws in [0, 1) passed to `Shuffling.Shuffle`.
- `Phaser.Utils.shuffle` (src/js/memory.js:48) is an engine call that is not part of this model. `Deck.CreateCurrent` takes any permutation of the literal deck in its place.
- `deck.pop()` on an empty deck returns `undefined`. The model requires rows × cols ≤ 16 instead.
- `Pew.Collection` in the newer build is not part of this model. It is assumed to behave like the legacy `Collection`.
- The return to the menu 5 s after victory (src/js/memory.js:110-113) is left out, as is the `console.log`.
- `inherit`, `Entity`, `EntityGroup`, `CardGroup.preload`, `Memory.Button` and the game-state registration are plumbing, not game rules.
- `src/js/lib/domparser.js` (a JSON/DOM shim) and `Gruntfile.js` (build configuration) hold no game logic.
- `Races.SameCardPairsWithItself` assumes a second click can reach the card while its reveal is pending. Whether Phaser delivers input to the back sprite during the flip animation is engine behaviour this model cannot see. So this race is shown but not claimed as a defect.

## Findings

| source | as written | input that shows it | evidently intended | confidence | as-written member | corrected member |
|---|---|---|---|---|---|---|
| js/memory.js:276 | the victory check compares `globals.collectedCards.length`; a `Collection` has no `length`, so it reads `undefined` and `=== numCardsTotal` is always false | a 2 × 2 round with all 4 cards collected after 20 moves: the legacy `update` adds no bonus and the newer one adds 500 (Races.LegacyMissesBonus) | compare `collectedCards.count()`, award the bonus once and end the round, as src/js/memory.js:93-109 does | high, not executed | Rules.LegacyBonusNeverAwarded | Rules.VictoryEndsRound |
| js/memory.js:376, src/js/memory.js:202 | in both builds `flip` counts only cards whose reveal has completed, so cards whose 120 ms reveal is pending are not counted | on a 2 × 2 board, clicks on slots 0, 1 and 2 within 120 ms: all three are accepted, and the round either sticks with three cards face up or collects slot 2 without its partner | at most two cards up or on their way up at any time | medium, not executed (needs clicks faster than the reveal) | Races.ThirdCardSweptIntoMatch | Rules.GuardedPlayKeepsInv |

Both builds only ever create a 4 × 4 board (js/memory.js:488, src/js/memory.js:401). The 2 × 2 inputs above keep the runs short, and neither defect depends on the board size. `Rules.LegacyBonusNeverAwarded` holds for a round of any size. `Table.GuardIgnoresPendingReveals` shows the guard ignores pending reveals on any board. `Races.MatchThenMismatch` runs on the 4 × 4 board itself.

=== FILE: cards.dfy ===
/**
 A single card of the game: its grid index, the face printed on it and its
 own three-state life cycle. The presentation side of a card (back, front
 and flip-animation sprites) is not modelled.
 */
module Cards {

  /** A face key. The game's faces are the asset keys 'card1'..'card8'; face `k` stands for 'cardk'. */
  type Face = int

  /** DEFAULT (face down, clickable), FLIPPED (face up, awaiting the pair check), COLLECTED (matched). */
  datatype CardState = Default | Flipped | Collected

  datatype Card = Card(index: int, key: Face, state: CardState)

  /** The body of the reveal timer: the card turns face up whatever its state was. */
  function Reveal(c: Card): (r: Card)
    ensures r.state == Flipped
    ensures r.index == c.index && r.key == c.key
  {
    c.(state := Flipped)
  }

  /** `flipBack`: a face-up card turns face down; a card in any other state is left alone. */
  function FlipBack(c: Card): (r: Card)
    ensures c.state == Flipped ==> r.state == Default
    ensures c.state != Flipped ==> r == c
    ensures r.index == c.index && r.key == c.key
    ensures r.state != Flipped
  {
    if c.state == Flipped then c.(state := Default) else c
  }

  /** The state change of `collect`: every card ends up COLLECTED, keeping its face and index. */
  function MarkCollected(c: Card): (r: Card)
    ensures r.state == Collected
    ensures r.index == c.index && r.key == c.key
    ensures c.state == Collected ==> r == c
  {
    c.(state := Collected)
  }
}

=== FILE: collection.dfy ===
/**
 The ordered bag the game keeps its "flipped" and "collected" cards in: a
 thin wrapper over an array with append, positional read, removal by
 identity, clear and count. Items are compared with JavaScript's `===`,
 which for card objects is identity; here it is Dafny equality on `T`.
 */
module Collections {

  /** A positional read past the end yields JavaScript's `undefined`: `None`. */
  datatype Option<+T> = None | Some(value: T)

  datatype Collection<T> = Collection(items: seq<T>)

  /** The collection a fresh `new Collection()` holds. */
  function Empty<T>(): (c: Collection<T>)
    ensures Count(c) == 0
  {
    Collection([])
  }

  function Count<T>(c: Collection<T>): (n: nat)
    ensures n == |multiset(c.items)|
  {
    |c.items|
  }

  /** `items[index]`: the item at that position, or `undefined` outside the array. */
  function Get<T>(c: Collection<T>, index: int): (r: Option<T>)
    ensures r.Some? <==> 0 <= index < Count(c)
    ensures r.Some? ==> r.value == c.items[index]
  {
    if 0 <= index < |c.items| then Some(c.items[index]) else None
  }

  /** `push`: the new item becomes the last one and every earlier item keeps its position. */
  function Add<T>(c: Collection<T>, item: T): (r: Collection<T>)
    ensures Count(r) == Count(c) + 1
    ensures Get(r, Count(c)) == Some(item)
    ensures forall i :: 0 <= i < Count(c) ==> Get(r, i) == Get(c, i)
  {
    Collection(c.items + [item])
  }

  /** Truncating the array to length zero. */
  function Clear<T>(c: Collection<T>): (r: Collection<T>)
    ensures Count(r) == 0
    ensures Get(r, 0) == None
  {
    Collection([])
  }

  /** The items other than `x`, in their original order: what a removal of `x` should leave. */
  function Without<T(==)>(s: seq<T>, x: T): (r: seq<T>)
    ensures x !in r
    ensures |r| <= |s|
  {
    if |s| == 0 then []
    else if s[0] == x then Without(s[1..], x)
    else [s[0]] + Without(s[1..], x)
  }

  /**
   The removal loop as written: it walks forward and splices out each item
   equal to `x`, but it increments the index after a splice too, so the item
   that slid into the spliced position is never examined.
   */
  function SpliceForward<T(==)>(s: seq<T>, x: T): (r: seq<T>)
    ensures Without(r, x) == Without(s, x)
    ensures |r| <= |s|
    ensures x !in s ==> r == s
    ensures x in s ==> |r| < |s|
  {
    if |s| == 0 then []
    else if s[0] == x then
      if |s| == 1 then [] else [s[1]] + SpliceForward(s[2..], x)
    else [s[0]] + SpliceForward(s[1..], x)
  }

  /**
   `remove(item)`: every item different from `item` survives in its original
   order, the count never grows, and a collection without `item` is untouched.
   */
  function Remove<T(==)>(c: Collection<T>, item: T): (r: Collection<T>)
    ensures Without(r.items, item) == Without(c.items, item)
    ensures Count(r) <= Count(c)
    ensures item !in c.items ==> r == c
    ensures item in c.items ==> Count(r) < Count(c)
  {
    Collection(SpliceForward(c.items, item))
  }

  /** No two neighbouring items are both `x`. */
  predicate NoAdjacentCopies<T(==)>(s: seq<T>, x: T)
  {
    forall i :: 0 <= i < |s| - 1 ==> !(s[i] == x && s[i + 1] == x)
  }

  /** When no two copies of `x` are neighbours, the skipping loop does remove every copy. */
  lemma {:induction false} SpliceForwardRemovesSpacedCopies<T>(s: seq<T>, x: T)
    requires NoAdjacentCopies(s, x)
    ensures x !in SpliceForward(s, x)
    ensures SpliceForward(s, x) == Without(s, x)
    decreases |s|
  {
    if |s| == 0 {
    } else if s[0] == x {
      if |s| > 1 {
        assert s[1] != x by { assert !(s[0] == x && s[1] == x); }
        var t := s[2..];
        assert NoAdjacentCopies(t, x) by {
          forall i | 0 <= i < |t| - 1 ensures !(t[i] == x && t[i + 1] == x) {
            assert t[i] == s[i + 2] && t[i + 1] == s[i + 3];
          }
        }
        SpliceForwardRemovesSpacedCopies(t, x);
        assert s[1..][1..] == t;
        assert s[1..][0] == s[1];
        calc {
          Without(s, x);
          Without(s[1..], x);
          [s[1]] + Without(t, x);
        }
      }
    } else {
      var t := s[1..];
      assert NoAdjacentCopies(t, x) by {
        forall i | 0 <= i < |t| - 1 ensures !(t[i] == x && t[i + 1] == x) {
          assert t[i] == s[i + 1] && t[i + 1] == s[i + 2];
        }
      }
      SpliceForwardRemovesSpacedCopies(t, x);
    }
  }

  /** Two neighbouring copies: one of them survives the removal. */
  lemma RemoveKeepsSecondOfAdjacentCopies<T>(x: T)
    ensures Remove(Collection([x, x]), x) == Collection([x])
    ensures x in Remove(Collection([x, x]), x).items
  {
    assert [x, x][2..] == [];
  }
}

=== FILE: deck.dfy ===
/**
 Board setup: the literal sixteen-card deck, its shuffle, and the row-major
 layout that pops one face off the end of the deck per grid cell. Sprite
 positions (the x/y offsets) are not modelled.
 */
module Deck {
  import opened Cards
  import Shuffling

  /** The deck literal: two cards of each face 'card1'..'card8'. */
  const LiteralDeck: seq<Face> := [1, 1, 2, 2, 3, 3, 4, 4, 5, 5, 6, 6, 7, 7, 8, 8]

  /** How many of the given faces equal `f`. */
  function FaceCount(faces: seq<Face>, f: Face): nat
  {
    if |faces| == 0 then 0
    else FaceCount(faces[..|faces| - 1], f) + if faces[|faces| - 1] == f then 1 else 0
  }

  /** The count of a face is its multiplicity in the multiset of the faces. */
  lemma {:induction false} FaceCountIsMultiplicity(faces: seq<Face>, f: Face)
    ensures FaceCount(faces, f) == multiset(faces)[f]
  {
    if |faces| > 0 {
      var init := faces[..|faces| - 1];
      FaceCountIsMultiplicity(init, f);
      assert faces == init + [faces[|faces| - 1]];
      assert multiset(faces) == multiset(init) + multiset{faces[|faces| - 1]};
    }
  }

  /** The faces printed on a row of cards, in order. */
  function Keys(cards: seq<Card>): (keys: seq<Face>)
    ensures |keys| == |cards|
    ensures forall k :: 0 <= k < |cards| ==> keys[k] == cards[k].key
  {
    seq(|cards|, k requires 0 <= k < |cards| => cards[k].key)
  }

  /** The first `n` results of `deck.pop()`: the deck read backwards from its end. */
  function Popped(deck: seq<Face>, n: nat): (r: seq<Face>)
    requires n <= |deck|
    ensures |r| == n
    ensures forall k :: 0 <= k < n ==> r[k] == deck[|deck| - 1 - k]
  {
    seq(n, k requires 0 <= k < n => deck[|deck| - 1 - k])
  }

  /** The index a card receives, as written: `(i * rows) + j`. */
  function CellIndex(rows: nat, i: nat, j: nat): nat
  {
    i * rows + j
  }

  lemma MulMono(a: nat, b: nat, rows: nat)
    requires a <= b
    ensures a * rows <= b * rows
  {
  }

  /** Division by `rows` undoes the index when `j < rows`: quotient `i`, remainder `j`. */
  lemma CellIndexDecodes(rows: nat, i: nat, j: nat)
    requires j < rows
    ensures CellIndex(rows, i, j) / rows == i && CellIndex(rows, i, j) % rows == j
  {
    var p := i * rows;
    var n := p + j;
    var q, m := n / rows, n % rows;
    var qr := q * rows;
    assert qr + m == p + j && 0 <= m < rows;
    if q > i {
      MulMono(i + 1, q, rows);
      assert false;
    } else if q < i {
      MulMono(q + 1, i, rows);
      assert false;
    }
  }

  lemma RowMajorBound(cols: nat, i: nat, j: nat, bound: nat)
    requires i < bound && j < cols
    ensures i * cols + j < bound * cols
  {
    assert (bound - (i + 1)) * cols >= 0;
    assert bound * cols == (i + 1) * cols + (bound - (i + 1)) * cols;
  }

  lemma NextRowFits(cols: nat, i: nat, rows: nat)
    requires i < rows
    ensures (i + 1) * cols == i * cols + cols <= rows * cols
  {
    assert (rows - (i + 1)) * cols >= 0;
    assert rows * cols == (i + 1) * cols + (rows - (i + 1)) * cols;
  }

  /** The position in creation order of the card built for cell (i, j). */
  function SlotOf(rows: nat, cols: nat, i: nat, j: nat): (k: nat)
    requires i < rows && j < cols
    ensures k < rows * cols
  {
    RowMajorBound(cols, i, j, rows);
    i * cols + j
  }

  /**
   One pass of the inner loop of `create`: for each column `j` of row `i`, a
   face-down card with index `(i * rows) + j` and the face popped off the end
   of what is left of the deck is appended after the cards made so far.
   */
  method PlaceRow(rows: nat, cols: nat, i: nat, deck: seq<Face>, made: seq<Card>) returns (cards: seq<Card>)
    requires |made| + cols <= |deck|
    ensures |cards| == |made| + cols
    ensures cards[..|made|] == made
    ensures forall j :: 0 <= j < cols ==>
              cards[|made| + j] == Card(CellIndex(rows, i, j), deck[|deck| - 1 - (|made| + j)], Default)
  {
    cards := made;
    var remaining := deck[..|deck| - |made|];
    var j := 0;
    while j < cols
      invariant 0 <= j <= cols
      invariant |cards| == |made| + j
      invariant cards[..|made|] == made
      invariant remaining == deck[..|deck| - |cards|]
      invariant forall j' :: 0 <= j' < j ==>
                  cards[|made| + j'] == Card(CellIndex(rows, i, j'), deck[|deck| - 1 - (|made| + j')], Default)
    {
      var index := CellIndex(rows, i, j);
      var key := remaining[|remaining| - 1];
      remaining := remaining[..|remaining| - 1];
      cards := cards + [Card(index, key, Default)];
      j := j + 1;
    }
  }

  /**
   The loop of `create`: for every row `i` and column `j`, a face-down card
   with index `(i * rows) + j` and the face popped off the end of the deck.
   Exactly `rows * cols` cards are made and `numCardsTotal` counts them.
   */
  method Layout(rows: nat, cols: nat, deck: seq<Face>) returns (cards: seq<Card>, numCardsTotal: nat)
    requires rows * cols <= |deck|
    ensures |cards| == rows * cols == numCardsTotal
    ensures Keys(cards) == Popped(deck, |cards|)
    ensures forall k :: 0 <= k < |cards| ==> cards[k].state == Default
    ensures forall i, j :: 0 <= i < rows && 0 <= j < cols ==>
              cards[SlotOf(rows, cols, i, j)].index == CellIndex(rows, i, j)
  {
    cards := [];
    var i := 0;
    while i < rows
      invariant 0 <= i <= rows
      invariant |cards| == i * cols
      invariant forall k :: 0 <= k < |cards| ==> cards[k].key == deck[|deck| - 1 - k]
      invariant forall k :: 0 <= k < |cards| ==> cards[k].state == Default
      invariant forall i', j' :: 0 <= i' < i && 0 <= j' < cols ==>
                  SlotOf(rows, cols, i', j') < |cards| && cards[SlotOf(rows, cols, i', j')].index == CellIndex(rows, i', j')
    {
      NextRowFits(cols, i, rows);
      var before := cards;
      cards := PlaceRow(rows, cols, i, deck, cards);
      RowKeepsIndices(rows, cols, i, before, cards);
      RowKeepsFaces(rows, cols, i, deck, before, cards);
      i := i + 1;
    }
    assert Keys(cards) == Popped(deck, |cards|);
    numCardsTotal := |cards|;
  }

  /** After one more row, every cell of the rows so far still carries its as-written index. */
  lemma RowKeepsIndices(rows: nat, cols: nat, i: nat, before: seq<Card>, cards: seq<Card>)
    requires i < rows && |before| == i * cols && |cards| == |before| + cols && cards[..|before|] == before
    requires forall j :: 0 <= j < cols ==> cards[|before| + j].index == CellIndex(rows, i, j)
    requires forall i', j' :: 0 <= i' < i && 0 <= j' < cols ==>
               SlotOf(rows, cols, i', j') < |before| && before[SlotOf(rows, cols, i', j')].index == CellIndex(rows, i', j')
    ensures forall i', j' :: 0 <= i' < i + 1 && 0 <= j' < cols ==>
              SlotOf(rows, cols, i', j') < |cards| && cards[SlotOf(rows, cols, i', j')].index == CellIndex(rows, i', j')
  {
    forall i', j' | 0 <= i' < i + 1 && 0 <= j' < cols
      ensures SlotOf(rows, cols, i', j') < |cards| && cards[SlotOf(rows, cols, i', j')].index == CellIndex(rows, i', j')
    {
      if i' < i {
        assert cards[SlotOf(rows, cols, i', j')] == before[SlotOf(rows, cols, i', j')];
      } else {
        assert SlotOf(rows, cols, i', j') == |before| + j';
      }
    }
  }

  /** After one more row, every card made so far is face down with the face popped at its position. */
  lemma RowKeepsFaces(rows: nat, cols: nat, i: nat, deck: seq<Face>, before: seq<Card>, cards: seq<Card>)
    requires |cards| == |before| + cols <= |deck| && cards[..|before|] == before
    requires forall j :: 0 <= j < cols ==>
               cards[|before| + j] == Card(CellIndex(rows, i, j), deck[|deck| - 1 - (|before| + j)], Default)
    requires forall k :: 0 <= k < |before| ==> before[k].key == deck[|deck| - 1 - k] && before[k].state == Default
    ensures forall k :: 0 <= k < |cards| ==> cards[k].key == deck[|deck| - 1 - k] && cards[k].state == Default
  {
    forall k | 0 <= k < |cards|
      ensures cards[k].key == deck[|deck| - 1 - k] && cards[k].state == Default
    {
      if k < |before| {
        assert cards[k] == before[k];
      } else {
        var j := k - |before|;
        assert cards[|before| + j] == Card(CellIndex(rows, i, j), deck[|deck| - 1 - (|before| + j)], Default);
      }
    }
  }

  /** The faces popped so far are, as a multiset, the tail of the deck they came from. */
  lemma {:induction false} PoppedIsDeckTail(deck: seq<Face>, n: nat)
    requires n <= |deck|
    ensures multiset(Popped(deck, n)) == multiset(deck[|deck| - n..])
  {
    if n > 0 {
      PoppedIsDeckTail(deck, n - 1);
      assert Popped(deck, n) == Popped(deck, n - 1) + [deck[|deck| - n]];
      assert deck[|deck| - n..] == [deck[|deck| - n]] + deck[|deck| - (n - 1)..];
    }
  }

  /** The literal deck holds each of the eight faces exactly twice and nothing else. */
  lemma LiteralDeckPairs(f: Face)
    ensures FaceCount(LiteralDeck, f) == if 1 <= f <= 8 then 2 else 0
  {
    assert LiteralDeck == Pairs(8);
    PairsCount(8, f);
  }

  /** Two cards of each face 1..n, in increasing order: the shape of the deck literal. */
  function Pairs(n: nat): seq<Face>
  {
    if n == 0 then [] else Pairs(n - 1) + [n, n]
  }

  lemma {:induction false} PairsCount(n: nat, f: Face)
    ensures FaceCount(Pairs(n), f) == if 1 <= f <= n then 2 else 0
  {
    if n > 0 {
      PairsCount(n - 1, f);
      PairsStepCount(n, f);
    }
  }

  /** The `n`-th pair adds two to the count of face `n` and nothing to any other. */
  lemma PairsStepCount(n: nat, f: Face)
    requires n > 0
    ensures FaceCount(Pairs(n), f) == FaceCount(Pairs(n - 1), f) + if f == n then 2 else 0
  {
    var p := Pairs(n - 1);
    assert Pairs(n) == p + [n, n];
    assert (p + [n, n])[..|p| + 1] == p + [n];
    assert (p + [n])[..|p|] == p;
  }

  /** With the board square, the as-written index of every card is its position, so no two cards share one. */
  lemma SquareIndexIsSlot(n: nat, k: nat)
    requires k < n * n
    ensures k / n < n && k % n < n
    ensures SlotOf(n, n, k / n, k % n) == k == CellIndex(n, k / n, k % n)
  {
    if k / n >= n {
      assert (k / n) * n >= n * n by { assert (k / n - n) * n >= 0; }
    }
  }

  /** On a 2 x 3 board the as-written index collides: cells (0, 2) and (1, 0) both get index 2. */
  lemma NonSquareIndexCollides()
    ensures SlotOf(2, 3, 0, 2) != SlotOf(2, 3, 1, 0)
    ensures CellIndex(2, 0, 2) == CellIndex(2, 1, 0) == 2
  {
  }

  /** The faces dealt so far come from the deck, and are all of it once the deck is used up. */
  lemma KeysWithinDeck(deck: seq<Face>, cards: seq<Card>)
    requires |cards| <= |deck| && Keys(cards) == Popped(deck, |cards|)
    ensures multiset(Keys(cards)) <= multiset(deck)
    ensures |cards| == |deck| ==> multiset(Keys(cards)) == multiset(deck)
  {
    var n := |cards|;
    PoppedIsDeckTail(deck, n);
    assert deck == deck[..|deck| - n] + deck[|deck| - n..];
    if n == |deck| {
      assert deck[|deck| - n..] == deck;
    }
  }

  /** What a layout from any ordering of the literal deck guarantees about faces and indices. */
  lemma {:induction false} LayoutFaces(rows: nat, cols: nat, deck: seq<Face>, cards: seq<Card>)
    requires multiset(deck) == multiset(LiteralDeck)
    requires |cards| == rows * cols <= |deck|
    requires Keys(cards) == Popped(deck, |cards|)
    ensures forall f :: FaceCount(Keys(cards), f) <= 2
    ensures forall f :: FaceCount(Keys(cards), f) > 0 ==> 1 <= f <= 8
    ensures |cards| == |LiteralDeck| ==> forall f :: 1 <= f <= 8 ==> FaceCount(Keys(cards), f) == 2
  {
    var n := |cards|;
    KeysWithinDeck(deck, cards);
    forall f ensures FaceCount(Keys(cards), f) <= FaceCount(LiteralDeck, f) {
      FaceCountIsMultiplicity(Keys(cards), f);
      FaceCountIsMultiplicity(LiteralDeck, f);
    }
    forall f ensures FaceCount(Keys(cards), f) <= 2 && (FaceCount(Keys(cards), f) > 0 ==> 1 <= f <= 8) {
      LiteralDeckPairs(f);
    }
    if n == |LiteralDeck| {
      assert |deck| == |multiset(deck)| == |LiteralDeck|;
      forall f | 1 <= f <= 8 ensures FaceCount(Keys(cards), f) == 2 {
        LiteralDeckPairs(f);
        FaceCountIsMultiplicity(Keys(cards), f);
        FaceCountIsMultiplicity(LiteralDeck, f);
      }
    }
  }

  /** What a layout on a square board guarantees about the card indices. */
  lemma SquareLayoutIndices(n: nat, cards: seq<Card>)
    requires |cards| == n * n
    requires forall i, j :: 0 <= i < n && 0 <= j < n ==> cards[SlotOf(n, n, i, j)].index == CellIndex(n, i, j)
    ensures forall k :: 0 <= k < |cards| ==> cards[k].index == k
  {
    forall k | 0 <= k < |cards| ensures cards[k].index == k {
      SquareIndexIsSlot(n, k);
      assert cards[SlotOf(n, n, k / n, k % n)].index == CellIndex(n, k / n, k % n);
    }
  }

  /**
   `Board.create` of the legacy build: shuffle the literal deck with
   Fisher-Yates, then lay it out. Exactly `rows * cols` face-down cards, each
   face on at most two of them (on exactly two when all sixteen are dealt),
   and on a square board every card's index is its position.
   */
  method CreateLegacy(rows: nat, cols: nat, draws: seq<real>) returns (cards: seq<Card>, numCardsTotal: nat)
    requires rows * cols <= |LiteralDeck|
    requires |draws| == |LiteralDeck| && Shuffling.ValidDraws(draws)
    ensures |cards| == rows * cols == numCardsTotal
    ensures forall k :: 0 <= k < |cards| ==> cards[k].state == Default
    ensures forall f :: FaceCount(Keys(cards), f) <= 2
    ensures forall f :: FaceCount(Keys(cards), f) > 0 ==> 1 <= f <= 8
    ensures rows * cols == |LiteralDeck| ==> forall f :: 1 <= f <= 8 ==> FaceCount(Keys(cards), f) == 2
    ensures rows == cols ==> forall k :: 0 <= k < |cards| ==> cards[k].index == k
  {
    var deck := Shuffling.Shuffle(LiteralDeck, draws);
    cards, numCardsTotal := Layout(rows, cols, deck);
    LayoutFaces(rows, cols, deck, cards);
    if rows == cols {
      SquareLayoutIndices(rows, cards);
    }
  }

  /**
   `Table.create` of the newer build: the engine's shuffle is an oracle, so
   the deck is any reordering of the literal one; the guarantees are those of
   the legacy build.
   */
  method CreateCurrent(rows: nat, cols: nat, deck: seq<Face>) returns (cards: seq<Card>, numCardsTotal: nat)
    requires multiset(deck) == multiset(LiteralDeck)
    requires rows * cols <= |LiteralDeck|
    ensures |cards| == rows * cols == numCardsTotal
    ensures forall k :: 0 <= k < |cards| ==> cards[k].state == Default
    ensures forall f :: FaceCount(Keys(cards), f) <= 2
    ensures forall f :: FaceCount(Keys(cards), f) > 0 ==> 1 <= f <= 8
    ensures rows * cols == |LiteralDeck| ==> forall f :: 1 <= f <= 8 ==> FaceCount(Keys(cards), f) == 2
    ensures rows == cols ==> forall k :: 0 <= k < |cards| ==> cards[k].index == k
  {
    assert |deck| == |multiset(deck)| == |LiteralDeck|;
    cards, numCardsTotal := Layout(rows, cols, deck);
    LayoutFaces(rows, cols, deck, cards);
    if rows == cols {
      SquareLayoutIndices(rows, cards);
    }
  }
}

=== FILE: races.dfy ===
/**
 Concrete runs of the round state machine. The first group shows what the
 click-time flip guard lets through when clicks come faster than the 120 ms
 reveal; the second replays ordinary play and the two victory checks.
 */
module Races {
  import opened Collections
  import opened Cards
  import opened Table
  import Rules
  import Score

  /** One step of a run, taken off its front. */
  lemma Chain(build: Build, r: Round, ev: Event, r': Round, rest: seq<Event>)
    requires WellFormed(r) && Enabled(r, ev) && Step(build, r, ev) == r'
    ensures Run(build, r, [ev] + rest) == Run(build, r', rest)
  {
    assert ([ev] + rest)[1..] == rest;
  }

  /** The same for play one reveal at a time. */
  lemma ChainSequential(build: Build, r: Round, ev: Event, r': Round, rest: seq<Event>)
    requires WellFormed(r) && Enabled(r, ev) && Rules.OneRevealAtATime(r, ev) && Step(build, r, ev) == r'
    ensures Rules.RunSequential(build, r, [ev] + rest) == Rules.RunSequential(build, r', rest)
  {
    assert ([ev] + rest)[1..] == rest;
  }

  // ---------------------------------------------------------------------
  // Races on a 2 x 2 board

  /** The 2 x 2 board with faces 1, 1, 2, 2 at slots 0..3, in the given states. */
  function Small(s0: CardState, s1: CardState, s2: CardState, s3: CardState): seq<Card>
  {
    [Card(0, 1, s0), Card(1, 1, s1), Card(2, 2, s2), Card(3, 2, s3)]
  }

  function A0(): Round { Start(Small(Default, Default, Default, Default), 4) }
  function A1(): Round { A0().(numMoves := 1, revealing := [0]) }
  function A2(): Round { A0().(numMoves := 2, revealing := [0, 1]) }
  function A3(): Round { A0().(numMoves := 3, revealing := [0, 1, 2]) }
  function A4(): Round { A3().(cards := Small(Flipped, Default, Default, Default), flipped := Collection([0]), revealing := [1, 2]) }
  function A5(): Round { A3().(cards := Small(Flipped, Flipped, Default, Default), flipped := Collection([0, 1]), revealing := [2]) }

  /** Three cards face up and no timer pending: where three quick clicks end when no frame runs in between. */
  function ThreeUp(): Round
  {
    A3().(cards := Small(Flipped, Flipped, Flipped, Default), flipped := Collection([0, 1, 2]), revealing := [])
  }

  lemma ThreeClicks(build: Build)
    ensures Step(build, A0(), Click(0)) == A1()
    ensures Step(build, A1(), Click(1)) == A2()
    ensures Step(build, A2(), Click(2)) == A3()
  {
  }

  lemma FirstTwoReveals(build: Build)
    ensures Step(build, A3(), RevealDone) == A4()
    ensures Step(build, A4(), RevealDone) == A5()
  {
  }

  lemma ThirdReveal(build: Build)
    ensures Step(build, A5(), RevealDone) == ThreeUp()
  {
  }

  /**
   Three clicks on three cards before any reveal completes: all three are
   accepted, count as three moves, and all three cards end up flipped.
   */
  lemma ThirdCardAccepted(build: Build)
    ensures Run(build, A0(), [Click(0), Click(1), Click(2), RevealDone, RevealDone, RevealDone]) == Some(ThreeUp())
    ensures Count(ThreeUp().flipped) == 3 && ThreeUp().numMoves == 3
  {
    ThreeClicks(build);
    FirstTwoReveals(build);
    ThirdReveal(build);
    Chain(build, A5(), RevealDone, ThreeUp(), []);
    Chain(build, A4(), RevealDone, A5(), [RevealDone]);
    Chain(build, A3(), RevealDone, A4(), [RevealDone, RevealDone]);
    Chain(build, A2(), Click(2), A3(), [RevealDone, RevealDone, RevealDone]);
    Chain(build, A1(), Click(1), A2(), [Click(2), RevealDone, RevealDone, RevealDone]);
    Chain(build, A0(), Click(0), A1(), [Click(1), Click(2), RevealDone, RevealDone, RevealDone]);
  }

  /**
   From there the round is stuck: the pair check wants exactly two flipped
   cards, every click is refused because two or more are flipped, and no
   timer is pending. Every event that can happen leaves the round as it is,
   and the round breaks the invariant the sequential play keeps.
   */
  lemma ThreeUpIsStuck(build: Build, ev: Event)
    requires Enabled(ThreeUp(), ev)
    ensures Step(build, ThreeUp(), ev) == ThreeUp()
    ensures !Rules.Inv(ThreeUp())
  {
  }

  function A6(): Round { A5().(state := Locked, resolving := true) }
  function A7(): Round { ThreeUp().(state := Locked, resolving := true) }

  /** All three face-up cards collected, one combo step scored. */
  function A8(): Round
  {
    A7().(cards := Small(Collected, Collected, Collected, Default), collected := Collection([0, 1, 2]),
          comboLength := 1, score := 100, flipped := Collection([]), state := Idle, resolving := false)
  }

  lemma LockThenThirdReveal(build: Build)
    ensures Step(build, A5(), Tick) == A6()
    ensures Step(build, A6(), RevealDone) == A7()
  {
  }

  /** The three collection steps of the sweep, one card at a time. */
  function A7Collected(k: nat): Round
  {
    if k == 0 then A7()
    else if k == 1 then A7().(cards := Small(Collected, Flipped, Flipped, Default), collected := Collection([0]))
    else if k == 2 then A7().(cards := Small(Collected, Collected, Flipped, Default), collected := Collection([0, 1]))
    else A7().(cards := Small(Collected, Collected, Collected, Default), collected := Collection([0, 1, 2]))
  }

  lemma CollectFirst()
    ensures CollectCard(A7Collected(0), 0) == A7Collected(1)
  {
    assert A7Collected(0).cards[0 := MarkCollected(A7Collected(0).cards[0])] == A7Collected(1).cards;
  }

  lemma CollectSecond()
    ensures CollectCard(A7Collected(1), 1) == A7Collected(2)
  {
    assert A7Collected(1).cards[1 := MarkCollected(A7Collected(1).cards[1])] == A7Collected(2).cards;
  }

  lemma CollectThird()
    ensures CollectCard(A7Collected(2), 2) == A7Collected(3)
  {
    assert A7Collected(2).cards[2 := MarkCollected(A7Collected(2).cards[2])] == A7Collected(3).cards;
  }

  lemma CollectLastOne()
    ensures CollectAll(A7Collected(2), [2]) == A7Collected(3)
  {
    CollectThird();
    assert [2][1..] == [];
  }

  lemma CollectLastTwo()
    ensures CollectAll(A7Collected(1), [1, 2]) == A7Collected(3)
  {
    CollectSecond();
    CollectLastOne();
    assert [1, 2][1..] == [2];
  }

  lemma CollectThree()
    ensures CollectAll(A7(), [0, 1, 2]) == A7Collected(3)
  {
    CollectFirst();
    CollectLastTwo();
    assert [0, 1, 2][1..] == [1, 2];
    assert A7Collected(0) == A7();
  }

  lemma SweepCollects()
    ensures CollectCards(A7(), [0, 1, 2]) == A7Collected(3).(comboLength := 1, score := 100)
  {
    CollectThree();
    var r1 := A7Collected(3);
    assert r1.comboLength == 0 && r1.score == 0;
    assert CollectCards(A7(), [0, 1, 2]) == r1.(comboLength := 1, score := Score.AddPoints(0, 100));
  }

  lemma SweepSettles()
    ensures var r1 := A7Collected(3).(comboLength := 1, score := 100);
            r1.(flipped := Clear(r1.flipped), state := Idle, resolving := false) == A8()
  {
  }

  lemma SweepResolveBody()
    ensures Resolve(A7()) == A8()
  {
    SweepCollects();
    SweepSettles();
    var r1 := A7Collected(3).(comboLength := 1, score := 100);
    assert A7().flipped.items == [0, 1, 2];
    assert Get(A7().flipped, 0) == Some(0) && Get(A7().flipped, 1) == Some(1);
    assert CompareCards(A7().cards[0], A7().cards[1]);
    assert CollectCards(A7(), A7().flipped.items) == r1;
  }

  lemma SweepResolves(build: Build)
    ensures Step(build, A7(), ResolveDone) == A8()
  {
    var r1 := Resolve(A7());
    SweepResolveBody();
    assert Step(build, A7(), ResolveDone) == r1;
  }

  /**
   When a frame runs between the second and third reveal, the first two cards
   lock the table and the third joins them face up; the match then collects
   all three, among them a card whose partner is still on the board, and
   leaves an odd number of cards collected.
   */
  lemma ThirdCardSweptIntoMatch(build: Build)
    ensures Run(build, A0(), [Click(0), Click(1), Click(2), RevealDone, RevealDone, Tick, RevealDone, ResolveDone]) == Some(A8())
    ensures A8().cards[2].state == Collected && A8().cards[3].state == Default
    ensures Count(A8().collected) == 3 && A8().comboLength == 1 && A8().score == 100
  {
    ThreeClicks(build);
    FirstTwoReveals(build);
    LockThenThirdReveal(build);
    SweepResolves(build);
    Chain(build, A7(), ResolveDone, A8(), []);
    Chain(build, A6(), RevealDone, A7(), [ResolveDone]);
    Chain(build, A5(), Tick, A6(), [RevealDone, ResolveDone]);
    Chain(build, A4(), RevealDone, A5(), [Tick, RevealDone, ResolveDone]);
    Chain(build, A3(), RevealDone, A4(), [RevealDone, Tick, RevealDone, ResolveDone]);
    Chain(build, A2(), Click(2), A3(), [RevealDone, RevealDone, Tick, RevealDone, ResolveDone]);
    Chain(build, A1(), Click(1), A2(), [Click(2), RevealDone, RevealDone, Tick, RevealDone, ResolveDone]);
    Chain(build, A0(), Click(0), A1(), [Click(1), Click(2), RevealDone, RevealDone, Tick, RevealDone, ResolveDone]);
  }

  function B2(): Round { A0().(numMoves := 2, revealing := [0, 0]) }
  function B3(): Round { B2().(cards := Small(Flipped, Default, Default, Default), flipped := Collection([0]), revealing := [0]) }
  function B4(): Round { B3().(flipped := Collection([0, 0]), revealing := []) }
  function B5(): Round { B4().(state := Locked, resolving := true) }
  function B6(): Round
  {
    B5().(cards := Small(Collected, Default, Default, Default), collected := Collection([0]),
          comboLength := 1, score := 100, flipped := Collection([]), state := Idle, resolving := false)
  }

  lemma SameCardClicks(build: Build)
    ensures Step(build, A1(), Click(0)) == B2()
    ensures Step(build, B2(), RevealDone) == B3()
  {
  }

  lemma SameCardSettles(build: Build)
    ensures Step(build, B3(), RevealDone) == B4()
    ensures Step(build, B4(), Tick) == B5()
  {
  }

  lemma SelfPairCollects()
    ensures CollectAll(B5(), [0, 0]) == B5().(cards := Small(Collected, Default, Default, Default), collected := Collection([0]))
  {
    var r1 := CollectCard(B5(), 0);
    assert r1.cards == Small(Collected, Default, Default, Default);
    assert [0, 0][1..] == [0];
    assert [0][1..] == [];
    assert CollectAll(B5(), [0, 0]) == CollectAll(r1, [0]) == CollectAll(CollectCard(r1, 0), []);
  }

  lemma SelfPairResolveBody()
    ensures Resolve(B5()) == B6()
  {
    var r := B5();
    SelfPairCollects();
    assert Get(r.flipped, 0) == Some(0) && Get(r.flipped, 1) == Some(0);
    assert CompareCards(r.cards[0], r.cards[0]);
    var r1 := r.(cards := Small(Collected, Default, Default, Default), collected := Collection([0]));
    assert CollectCards(r, r.flipped.items) == r1.(comboLength := 1, score := 100);
  }

  lemma SelfPairResolves(build: Build)
    ensures Step(build, B5(), ResolveDone) == B6()
  {
    var r1 := Resolve(B5());
    SelfPairResolveBody();
    assert Step(build, B5(), ResolveDone) == r1;
  }

  /**
   Two clicks on the same card before its reveal completes: both are accepted,
   the card is listed twice in `flippedCards`, compares equal to itself, and is
   collected alone as if it were a pair.
   */
  lemma SameCardPairsWithItself(build: Build)
    ensures Run(build, A0(), [Click(0), Click(0), RevealDone, RevealDone, Tick, ResolveDone]) == Some(B6())
    ensures B6().cards[0].state == Collected && B6().cards[1].state == Default
    ensures B6().collected.items == [0] && B6().numMoves == 2 && B6().score == 100
  {
    ThreeClicks(build);
    SameCardClicks(build);
    SameCardSettles(build);
    SelfPairResolves(build);
    Chain(build, B5(), ResolveDone, B6(), []);
    Chain(build, B4(), Tick, B5(), [ResolveDone]);
    Chain(build, B3(), RevealDone, B4(), [Tick, ResolveDone]);
    Chain(build, B2(), RevealDone, B3(), [RevealDone, Tick, ResolveDone]);
    Chain(build, A1(), Click(0), B2(), [RevealDone, RevealDone, Tick, ResolveDone]);
    Chain(build, A0(), Click(0), A1(), [Click(0), RevealDone, RevealDone, Tick, ResolveDone]);
  }

  /** The corrected guard refuses the second click on a card whose reveal is pending, and a third card while two are on their way up. */
  lemma GuardedRefusesRaces()
    ensures Rules.FlipGuarded(A1(), 0) == A1()
    ensures Rules.FlipGuarded(A1(), 1) == A2()
    ensures Rules.FlipGuarded(A2(), 2) == A2()
  {
  }

  // ---------------------------------------------------------------------
  // Ordinary play on a 4 x 4 board

  /** A 4 x 4 board with face 1 at slots 0 and 5, face 2 at slots 1 and 9, face 3 at slots 2 and 10. */
  const Board16: seq<Card> := [
    Card(0, 1, Default), Card(1, 2, Default), Card(2, 3, Default), Card(3, 4, Default),
    Card(4, 5, Default), Card(5, 1, Default), Card(6, 6, Default), Card(7, 7, Default),
    Card(8, 8, Default), Card(9, 2, Default), Card(10, 3, Default), Card(11, 4, Default),
    Card(12, 5, Default), Card(13, 6, Default), Card(14, 7, Default), Card(15, 8, Default)]

  /** The first pair collected. */
  const Pair05: seq<Card> := Board16[0 := Card(0, 1, Collected)][5 := Card(5, 1, Collected)]

  function C0(): Round { Start(Board16, 16) }
  function C1(): Round { C0().(numMoves := 1, revealing := [0]) }
  function C2(): Round { C1().(cards := Board16[0 := Card(0, 1, Flipped)], flipped := Collection([0]), revealing := []) }
  function C3(): Round { C2().(numMoves := 2, revealing := [5]) }
  function C4(): Round { C3().(cards := C2().cards[5 := Card(5, 1, Flipped)], flipped := Collection([0, 5]), revealing := []) }
  function C5(): Round { C4().(state := Locked, resolving := true) }
  function C6(): Round
  {
    C5().(cards := Pair05, collected := Collection([0, 5]), comboLength := 1, score := 100,
          flipped := Collection([]), state := Idle, resolving := false)
  }
  function C7(): Round { C6().(numMoves := 3, revealing := [1]) }
  function C8(): Round { C7().(cards := Pair05[1 := Card(1, 2, Flipped)], flipped := Collection([1]), revealing := []) }
  function C9(): Round { C8().(numMoves := 4, revealing := [2]) }
  function C10(): Round { C9().(cards := C8().cards[2 := Card(2, 3, Flipped)], flipped := Collection([1, 2]), revealing := []) }
  function C11(): Round { C10().(state := Locked, resolving := true) }
  function C12(): Round { C11().(cards := Pair05, comboLength := 0, flipped := Collection([]), state := Idle, resolving := false) }

  lemma MatchingFirstCard(build: Build)
    ensures Step(build, C0(), Click(0)) == C1()
    ensures Step(build, C1(), RevealDone) == C2()
  {
  }

  lemma MatchingSecondCard(build: Build)
    ensures Step(build, C2(), Click(5)) == C3()
    ensures Step(build, C3(), RevealDone) == C4()
    ensures Step(build, C4(), Tick) == C5()
  {
  }

  lemma MatchResolveBody()
    ensures Resolve(C5()) == C6()
  {
    var r := C5();
    Rules.CollectPair(r, 0, 5);
    assert Get(r.flipped, 0) == Some(0) && Get(r.flipped, 1) == Some(5);
    assert CompareCards(r.cards[0], r.cards[5]);
    assert r.cards[0 := MarkCollected(r.cards[0])][5 := MarkCollected(r.cards[5])] == Pair05;
    var r1 := r.(cards := Pair05, collected := Collection([0, 5]));
    assert CollectAll(r, r.flipped.items) == r1;
    assert CollectCards(r, r.flipped.items) == r1.(comboLength := 1, score := 100);
  }

  lemma MatchResolves(build: Build)
    ensures Step(build, C5(), ResolveDone) == C6()
  {
    var r1 := Resolve(C5());
    MatchResolveBody();
    assert Step(build, C5(), ResolveDone) == r1;
  }

  lemma MismatchingFirstCard(build: Build)
    ensures Step(build, C6(), Click(1)) == C7()
    ensures Step(build, C7(), RevealDone) == C8()
  {
  }

  lemma MismatchingSecondCard(build: Build)
    ensures Step(build, C8(), Click(2)) == C9()
    ensures Step(build, C9(), RevealDone) == C10()
    ensures Step(build, C10(), Tick) == C11()
  {
  }

  lemma MismatchResolveBody()
    ensures Resolve(C11()) == C12()
  {
    var r := C11();
    Rules.FlipPairBack(r, 1, 2);
    assert Get(r.flipped, 0) == Some(1) && Get(r.flipped, 1) == Some(2);
    assert !CompareCards(r.cards[1], r.cards[2]);
    assert r.cards[1 := FlipBack(r.cards[1])][2 := FlipBack(r.cards[2])] == Pair05;
    var r1 := r.(cards := Pair05, comboLength := 0);
    assert FlipCardsBack(r, r.flipped.items) == r1;
  }

  lemma MismatchResolves(build: Build)
    ensures Step(build, C11(), ResolveDone) == C12()
  {
    var r1 := Resolve(C11());
    MismatchResolveBody();
    assert Step(build, C11(), ResolveDone) == r1;
  }

  lemma MatchingTurnTail(build: Build)
    ensures Rules.RunSequential(build, C3(), [RevealDone, Tick, ResolveDone]) == Some(C6())
  {
    MatchingSecondCard(build);
    MatchingTurnLast(build);
    ChainSequential(build, C4(), Tick, C5(), [ResolveDone]);
    ChainSequential(build, C3(), RevealDone, C4(), [Tick, ResolveDone]);
  }

  lemma MatchingTurnLast(build: Build)
    ensures Rules.RunSequential(build, C5(), [ResolveDone]) == Some(C6())
  {
    MatchResolves(build);
    ChainSequential(build, C5(), ResolveDone, C6(), []);
  }

  /** A matching pair is collected for 100 points at combo 1. */
  lemma MatchingTurnRun(build: Build)
    ensures Rules.RunSequential(build, C0(), [Click(0), RevealDone, Click(5), RevealDone, Tick, ResolveDone]) == Some(C6())
  {
    MatchingFirstCard(build);
    MatchingSecondCard(build);
    MatchingTurnTail(build);
    ChainSequential(build, C2(), Click(5), C3(), [RevealDone, Tick, ResolveDone]);
    ChainSequential(build, C1(), RevealDone, C2(), [Click(5), RevealDone, Tick, ResolveDone]);
    ChainSequential(build, C0(), Click(0), C1(), [RevealDone, Click(5), RevealDone, Tick, ResolveDone]);
  }

  lemma MismatchingTurnTail(build: Build)
    ensures Rules.RunSequential(build, C9(), [RevealDone, Tick, ResolveDone]) == Some(C12())
  {
    MismatchingSecondCard(build);
    MismatchingTurnLast(build);
    ChainSequential(build, C10(), Tick, C11(), [ResolveDone]);
    ChainSequential(build, C9(), RevealDone, C10(), [Tick, ResolveDone]);
  }

  lemma MismatchingTurnLast(build: Build)
    ensures Rules.RunSequential(build, C11(), [ResolveDone]) == Some(C12())
  {
    MismatchResolves(build);
    ChainSequential(build, C11(), ResolveDone, C12(), []);
  }

  /** A following mismatch flips both cards back. */
  lemma MismatchingTurnRun(build: Build)
    ensures Rules.RunSequential(build, C6(), [Click(1), RevealDone, Click(2), RevealDone, Tick, ResolveDone]) == Some(C12())
  {
    MismatchingFirstCard(build);
    MismatchingSecondCard(build);
    MismatchingTurnTail(build);
    ChainSequential(build, C8(), Click(2), C9(), [RevealDone, Tick, ResolveDone]);
    ChainSequential(build, C7(), RevealDone, C8(), [Click(2), RevealDone, Tick, ResolveDone]);
    ChainSequential(build, C6(), Click(1), C7(), [RevealDone, Click(2), RevealDone, Tick, ResolveDone]);
  }

  /**
   A matching pair is collected for 100 points at combo 1; a mismatch then
   flips its two cards back, breaks the combo and leaves the score alone.
   */
  lemma MatchThenMismatch(build: Build)
    ensures Rules.RunSequential(build, C0(), [Click(0), RevealDone, Click(5), RevealDone, Tick, ResolveDone]) == Some(C6())
    ensures C6().cards[0].state == Collected && C6().cards[5].state == Collected
    ensures C6().comboLength == 1 && C6().score == 100
    ensures Rules.RunSequential(build, C6(), [Click(1), RevealDone, Click(2), RevealDone, Tick, ResolveDone]) == Some(C12())
    ensures C12().cards[1].state == Default && C12().cards[2].state == Default
    ensures C12().comboLength == 0 && C12().score == 100 && C12().numMoves == 4
  {
    MatchingTurnRun(build);
    MismatchingTurnRun(build);
  }

  // ---------------------------------------------------------------------
  // The two victory checks

  /** A 2 x 2 round with every card collected after 20 moves. */
  function Cleared(): Round
  {
    Start(Small(Collected, Collected, Collected, Collected), 4)
      .(collected := Collection([0, 1, 2, 3]), numMoves := 20, comboLength := 2, score := 300)
  }

  /** On a cleared board the legacy update adds nothing and never ends the round; the newer one ends it with the 500-point bonus. */
  lemma LegacyMissesBonus()
    ensures Update(Legacy, Cleared()) == Cleared()
    ensures Update(Current, Cleared()) == Cleared().(score := 800, state := Ended)
  {
  }
}

=== FILE: rules.dfy ===
/**
 What the round state machine guarantees, and where its flip guard falls
 short. The guard of `Card.flip` counts only cards whose reveal has
 completed, so while a reveal timer is pending further clicks are accepted.
 The invariant below therefore holds for play where each reveal completes
 before the next click, and for every interleaving once the guard also counts
 pending reveals; the counterexamples show what unrestricted play can reach.
 */
module Rules {
  import opened Collections
  import opened Cards
  import opened Table
  import Score

  // ---------------------------------------------------------------------
  // Counting cards by state

  /** How many of the cards are in state `st`. */
  function Tally(cards: seq<Card>, st: CardState): (n: nat)
    ensures n <= |cards|
  {
    if |cards| == 0 then 0 else (if cards[0].state == st then 1 else 0) + Tally(cards[1..], st)
  }

  lemma {:induction false} TallyUpdate(cards: seq<Card>, s: nat, c: Card, st: CardState)
    requires s < |cards|
    ensures Tally(cards[s := c], st) ==
              Tally(cards, st) - (if cards[s].state == st then 1 else 0) + (if c.state == st then 1 else 0)
  {
    if s > 0 {
      TallyUpdate(cards[1..], s - 1, c, st);
      assert cards[s := c][1..] == cards[1..][s - 1 := c];
    } else {
      assert cards[s := c][1..] == cards[1..];
    }
  }

  /** The three states partition the cards. */
  lemma {:induction false} TallyPartition(cards: seq<Card>)
    ensures Tally(cards, Default) + Tally(cards, Flipped) + Tally(cards, Collected) == |cards|
  {
    if |cards| > 0 {
      TallyPartition(cards[1..]);
    }
  }

  lemma {:induction false} TallyAllDefault(cards: seq<Card>)
    requires forall k :: 0 <= k < |cards| ==> cards[k].state == Default
    ensures Tally(cards, Flipped) == 0 && Tally(cards, Collected) == 0
  {
    if |cards| > 0 {
      TallyAllDefault(cards[1..]);
    }
  }

  // ---------------------------------------------------------------------
  // The invariant

  predicate NoDup(s: seq<Slot>)
  {
    forall i, j :: 0 <= i < j < |s| ==> s[i] != s[j]
  }

  /** Card states agree with the two collections, whose sizes count the cards in those states. */
  predicate StatesAgree(r: Round)
  {
    && (forall k :: 0 <= k < |r.cards| ==> (r.cards[k].state == Collected <==> k in r.collected.items))
    && (forall k :: 0 <= k < |r.cards| ==> (r.cards[k].state == Flipped <==> k in r.flipped.items))
    && Count(r.collected) == Tally(r.cards, Collected)
    && Count(r.flipped) == Tally(r.cards, Flipped)
  }

  /** Pending reveals are for distinct face-down cards, and at most two cards are up or on their way up. */
  predicate RevealsBounded(r: Round)
    requires WellFormed(r)
  {
    && NoDup(r.flipped.items)
    && NoDup(r.revealing)
    && (forall i :: 0 <= i < |r.revealing| ==> r.cards[r.revealing[i]].state == Default)
    && Count(r.flipped) + |r.revealing| <= 2
  }

  /** The lock and the resolution timer go together, and the lock holds exactly one settled pair. */
  predicate LockAgrees(r: Round)
  {
    && (r.resolving <==> r.state == Locked)
    && (r.state == Locked ==> Count(r.flipped) == 2 && r.revealing == [])
    && (r.state == Ended ==> Count(r.collected) == r.numCardsTotal)
  }

  /** Matches collect whole pairs: the collected count is even and covers two cards per combo step. */
  predicate PairsCollected(r: Round)
  {
    && Count(r.collected) % 2 == 0
    && 2 * r.comboLength <= Count(r.collected)
    && r.score >= 0
  }

  predicate Inv(r: Round)
  {
    && WellFormed(r)
    && |r.cards| == r.numCardsTotal
    && StatesAgree(r)
    && RevealsBounded(r)
    && LockAgrees(r)
    && PairsCollected(r)
  }

  /** A freshly created round satisfies the invariant. */
  lemma StartInv(cards: seq<Card>)
    requires forall k :: 0 <= k < |cards| ==> cards[k].state == Default
    ensures Inv(Start(cards, |cards|))
  {
    TallyAllDefault(cards);
  }

  /** The invariant's headline: never more than two flipped cards, and never more than two up or on their way up. */
  lemma InvBoundsFlipped(r: Round)
    requires Inv(r)
    ensures Count(r.flipped) <= 2
    ensures Count(r.flipped) + |r.revealing| <= 2
  {
  }

  // ---------------------------------------------------------------------
  // Preservation, event by event

  /** Each reveal completes before the next click. */
  predicate OneRevealAtATime(r: Round, ev: Event)
  {
    ev.Click? ==> r.revealing == []
  }

  lemma ClickKeepsInv(r: Round, s: Slot)
    requires Inv(r) && s < |r.cards| && r.revealing == []
    ensures Inv(Flip(r, s))
  {
  }

  lemma RevealKeepsInv(r: Round)
    requires Inv(r) && |r.revealing| > 0
    ensures Inv(CompleteReveal(r))
  {
    var s := r.revealing[0];
    var r' := CompleteReveal(r);
    TallyUpdate(r.cards, s, Reveal(r.cards[s]), Flipped);
    TallyUpdate(r.cards, s, Reveal(r.cards[s]), Collected);
    assert s !in r.flipped.items;
    assert r'.flipped.items == r.flipped.items + [s];
    assert forall k :: 0 <= k < |r.cards| ==> (r'.cards[k].state == Collected <==> k in r'.collected.items);
    assert forall k :: 0 <= k < |r.cards| ==> (r'.cards[k].state == Flipped <==> k in r'.flipped.items);
    forall i | 0 <= i < |r'.revealing| ensures r'.cards[r'.revealing[i]].state == Default {
      assert r'.revealing[i] == r.revealing[i + 1];
      assert r.revealing[i + 1] != r.revealing[0];
    }
  }

  /** A locked table holds two face-up cards, so not every card can be collected. */
  lemma LockedNotAllCollected(r: Round)
    requires Inv(r) && r.state == Locked
    ensures Count(r.collected) < r.numCardsTotal
  {
    TallyPartition(r.cards);
  }

  lemma TickKeepsInv(build: Build, r: Round)
    requires Inv(r)
    ensures Inv(Update(build, r))
  {
    var p := PairCheck(r);
    if p.state == Locked {
      assert p.state == Locked && Count(p.flipped) == 2 && p.revealing == [];
      assert Inv(p);
      LockedNotAllCollected(p);
    } else {
      assert Inv(p);
    }
    Score.BonusNonIncreasing(0, r.numMoves);
  }

  /** Collecting two distinct face-up cards, one after the other. */
  lemma CollectPair(r: Round, a: Slot, b: Slot)
    requires WellFormed(r) && a < |r.cards| && b < |r.cards| && a != b
    requires r.cards[a].state != Collected && r.cards[b].state != Collected
    ensures CollectAll(r, [a, b]) ==
              r.(collected := Add(Add(r.collected, a), b),
                 cards := r.cards[a := MarkCollected(r.cards[a])][b := MarkCollected(r.cards[b])])
  {
    var r1 := CollectCard(r, a);
    assert r1 == r.(collected := Add(r.collected, a), cards := r.cards[a := MarkCollected(r.cards[a])]);
    var r2 := CollectCard(r1, b);
    assert r1.cards[b] == r.cards[b];
    assert r2 == r1.(collected := Add(r1.collected, b), cards := r1.cards[b := MarkCollected(r.cards[b])]);
    assert [a, b][1..] == [b];
    assert [b][1..] == [];
    assert CollectAll(r, [a, b]) == CollectAll(r1, [b]);
    assert CollectAll(r1, [b]) == CollectAll(r2, []);
  }

  /** Flipping back two distinct cards, one after the other. */
  lemma FlipPairBack(r: Round, a: Slot, b: Slot)
    requires WellFormed(r) && a < |r.cards| && b < |r.cards|
    ensures FlipAllBack(r, [a, b]) ==
              r.(cards := r.cards[a := FlipBack(r.cards[a])][b := FlipBack(r.cards[b])])
  {
    assert [a, b][1..] == [b];
    assert [b][1..] == [];
  }

  /** The round a match resolves to, spelled out. */
  function Matched(r: Round, a: Slot, b: Slot): Round
    requires a < |r.cards| && b < |r.cards|
  {
    r.(collected := Add(Add(r.collected, a), b),
       cards := r.cards[a := MarkCollected(r.cards[a])][b := MarkCollected(r.cards[b])],
       comboLength := r.comboLength + 1,
       score := r.score + 100 * (r.comboLength + 1),
       flipped := Collection([]), state := Idle, resolving := false)
  }

  /** The round a mismatch resolves to, spelled out. */
  function Mismatched(r: Round, a: Slot, b: Slot): Round
    requires a < |r.cards| && b < |r.cards|
  {
    r.(cards := r.cards[a := FlipBack(r.cards[a])][b := FlipBack(r.cards[b])],
       comboLength := 0, flipped := Collection([]), state := Idle, resolving := false)
  }

  lemma ResolveShape(r: Round)
    requires Inv(r) && r.resolving
    ensures r.flipped.items == [r.flipped.items[0], r.flipped.items[1]]
    ensures r.flipped.items[0] != r.flipped.items[1]
    ensures r.cards[r.flipped.items[0]].state == Flipped && r.cards[r.flipped.items[1]].state == Flipped
    ensures var a, b := r.flipped.items[0], r.flipped.items[1];
            Resolve(r) == if r.cards[a].key == r.cards[b].key then Matched(r, a, b) else Mismatched(r, a, b)
  {
    var a, b := r.flipped.items[0], r.flipped.items[1];
    assert r.flipped.items == [a, b];
    if r.cards[a].key == r.cards[b].key {
      CollectPair(r, a, b);
    } else {
      FlipPairBack(r, a, b);
    }
  }

  /** The precondition shared by the two resolution outcomes: a lock on two distinct settled cards. */
  predicate PairPending(r: Round, a: Slot, b: Slot)
  {
    Inv(r) && r.resolving && r.revealing == [] && r.flipped.items == [a, b] && a != b && a < |r.cards| && b < |r.cards|
  }

  lemma MatchedCollectedAgree(r: Round, a: Slot, b: Slot)
    requires PairPending(r, a, b)
    ensures var r' := Matched(r, a, b);
            && (forall k :: 0 <= k < |r'.cards| ==> (r'.cards[k].state == Collected <==> k in r'.collected.items))
            && Count(r'.collected) == Tally(r'.cards, Collected)
  {
    MatchedCollectedStates(r, a, b);
    MatchedCollectedCount(r, a, b);
  }

  lemma MatchedCollectedStates(r: Round, a: Slot, b: Slot)
    requires PairPending(r, a, b)
    ensures var r' := Matched(r, a, b);
            forall k :: 0 <= k < |r'.cards| ==> (r'.cards[k].state == Collected <==> k in r'.collected.items)
  {
    assert r.cards[a].state == Flipped && r.cards[b].state == Flipped;
    var r' := Matched(r, a, b);
    assert r'.collected.items == r.collected.items + [a, b];
  }

  lemma MatchedCollectedCount(r: Round, a: Slot, b: Slot)
    requires PairPending(r, a, b)
    ensures var r' := Matched(r, a, b);
            Count(r'.collected) == Tally(r'.cards, Collected)
  {
    assert r.cards[a].state == Flipped && r.cards[b].state == Flipped;
    var r' := Matched(r, a, b);
    var cs1 := r.cards[a := MarkCollected(r.cards[a])];
    assert r'.cards == cs1[b := MarkCollected(r.cards[b])];
    assert Count(r'.collected) == Count(r.collected) + 2;
    TallyUpdate(r.cards, a, MarkCollected(r.cards[a]), Collected);
    TallyUpdate(cs1, b, MarkCollected(r.cards[b]), Collected);
  }

  lemma MatchedFlippedAgree(r: Round, a: Slot, b: Slot)
    requires PairPending(r, a, b)
    ensures var r' := Matched(r, a, b);
            && (forall k :: 0 <= k < |r'.cards| ==> (r'.cards[k].state == Flipped <==> k in r'.flipped.items))
            && Count(r'.flipped) == Tally(r'.cards, Flipped)
  {
    assert r.cards[a].state == Flipped && r.cards[b].state == Flipped;
    var r' := Matched(r, a, b);
    var cs1 := r.cards[a := MarkCollected(r.cards[a])];
    assert r'.cards == cs1[b := MarkCollected(r.cards[b])];
    TallyUpdate(r.cards, a, MarkCollected(r.cards[a]), Flipped);
    TallyUpdate(cs1, b, MarkCollected(r.cards[b]), Flipped);
  }

  lemma MatchedKeepsInv(r: Round, a: Slot, b: Slot)
    requires Inv(r) && r.resolving && r.revealing == []
    requires r.flipped.items == [a, b] && a != b && a < |r.cards| && b < |r.cards|
    ensures Inv(Matched(r, a, b))
  {
    var r' := Matched(r, a, b);
    MatchedCollectedAgree(r, a, b);
    MatchedFlippedAgree(r, a, b);
    assert r'.collected.items == r.collected.items + [a, b];
    assert WellFormed(r');
    assert StatesAgree(r');
    assert RevealsBounded(r');
    assert LockAgrees(r');
    assert PairsCollected(r');
  }

  lemma MismatchedCollectedAgree(r: Round, a: Slot, b: Slot)
    requires PairPending(r, a, b)
    ensures var r' := Mismatched(r, a, b);
            && (forall k :: 0 <= k < |r'.cards| ==> (r'.cards[k].state == Collected <==> k in r'.collected.items))
            && Count(r'.collected) == Tally(r'.cards, Collected)
  {
    var r' := Mismatched(r, a, b);
    var cs1 := r.cards[a := FlipBack(r.cards[a])];
    assert r'.cards == cs1[b := FlipBack(r.cards[b])];
    TallyUpdate(r.cards, a, FlipBack(r.cards[a]), Collected);
    TallyUpdate(cs1, b, FlipBack(r.cards[b]), Collected);
  }

  lemma MismatchedFlippedAgree(r: Round, a: Slot, b: Slot)
    requires PairPending(r, a, b)
    ensures var r' := Mismatched(r, a, b);
            && (forall k :: 0 <= k < |r'.cards| ==> (r'.cards[k].state == Flipped <==> k in r'.flipped.items))
            && Count(r'.flipped) == Tally(r'.cards, Flipped)
  {
    assert r.cards[a].state == Flipped && r.cards[b].state == Flipped;
    var r' := Mismatched(r, a, b);
    var cs1 := r.cards[a := FlipBack(r.cards[a])];
    assert r'.cards == cs1[b := FlipBack(r.cards[b])];
    TallyUpdate(r.cards, a, FlipBack(r.cards[a]), Flipped);
    TallyUpdate(cs1, b, FlipBack(r.cards[b]), Flipped);
  }

  lemma MismatchedKeepsInv(r: Round, a: Slot, b: Slot)
    requires Inv(r) && r.resolving && r.revealing == []
    requires r.flipped.items == [a, b] && a != b && a < |r.cards| && b < |r.cards|
    ensures Inv(Mismatched(r, a, b))
  {
    var r' := Mismatched(r, a, b);
    MismatchedCollectedAgree(r, a, b);
    MismatchedFlippedAgree(r, a, b);
    assert WellFormed(r');
    assert StatesAgree(r');
    assert RevealsBounded(r');
    assert LockAgrees(r');
    assert PairsCollected(r');
  }

  lemma ResolveKeepsInv(r: Round)
    requires Inv(r) && r.resolving && r.revealing == []
    ensures Inv(Resolve(r))
  {
    ResolveShape(r);
    var a, b := r.flipped.items[0], r.flipped.items[1];
    if r.cards[a].key == r.cards[b].key {
      MatchedKeepsInv(r, a, b);
    } else {
      MismatchedKeepsInv(r, a, b);
    }
  }

  /** Every event keeps the invariant, provided each reveal completes before the next click. */
  lemma StepKeepsInv(build: Build, r: Round, ev: Event)
    requires Inv(r) && Enabled(r, ev) && OneRevealAtATime(r, ev)
    ensures Inv(Step(build, r, ev))
  {
    match ev
    case Click(s) => ClickKeepsInv(r, s);
    case RevealDone => RevealKeepsInv(r);
    case Tick => TickKeepsInv(build, r);
    case ResolveDone => ResolveKeepsInv(r);
  }

  // ---------------------------------------------------------------------
  // Whole runs

  /** The round after a run in which each reveal completes before the next click; `None` if the run breaks that rule or an event cannot happen. */
  function RunSequential(build: Build, r: Round, events: seq<Event>): Option<Round>
    requires WellFormed(r)
    decreases |events|
  {
    if |events| == 0 then Some(r)
    else if !Enabled(r, events[0]) || !OneRevealAtATime(r, events[0]) then None
    else RunSequential(build, Step(build, r, events[0]), events[1..])
  }

  /** Played one reveal at a time, a round keeps its invariant, so at most two cards are ever flipped. */
  lemma {:induction false} SequentialPlayKeepsInv(build: Build, r: Round, events: seq<Event>)
    requires Inv(r)
    ensures RunSequential(build, r, events).Some? ==>
              && Inv(RunSequential(build, r, events).value)
              && Count(RunSequential(build, r, events).value.flipped) <= 2
    decreases |events|
  {
    if |events| > 0 && Enabled(r, events[0]) && OneRevealAtATime(r, events[0]) {
      StepKeepsInv(build, r, events[0]);
      SequentialPlayKeepsInv(build, Step(build, r, events[0]), events[1..]);
    }
  }

  // ---------------------------------------------------------------------
  // Victory

  /** Under the newer build nothing moves an ENDED table out of ENDED, and nothing changes its score. */
  lemma EndedIsFinal(r: Round, ev: Event)
    requires Inv(r) && r.state == Ended && Enabled(r, ev)
    ensures Step(Current, r, ev).state == Ended
    ensures Step(Current, r, ev).score == r.score
  {
  }

  /** When every card is in state `st`, the tally says so, and conversely. */
  lemma {:induction false} TallyFull(cards: seq<Card>, st: CardState)
    requires Tally(cards, st) == |cards|
    ensures forall k :: 0 <= k < |cards| ==> cards[k].state == st
  {
    if |cards| > 0 {
      TallyFull(cards[1..], st);
      forall k | 0 <= k < |cards| ensures cards[k].state == st {
        if k > 0 {
          assert cards[k] == cards[1..][k - 1];
        }
      }
    }
  }

  lemma PendingRevealIsDefault(r: Round, i: nat)
    requires WellFormed(r) && RevealsBounded(r) && i < |r.revealing|
    ensures r.cards[r.revealing[i]].state == Default
  {
  }

  /** The newer build's victory condition means what it says: every card on the table is COLLECTED, and none is flipped or on its way up. */
  lemma VictoryMeansAllCollected(r: Round)
    requires Inv(r) && Count(r.collected) == r.numCardsTotal
    ensures forall k :: 0 <= k < |r.cards| ==> r.cards[k].state == Collected
    ensures Count(r.flipped) == 0 && r.revealing == []
  {
    TallyFull(r.cards, Collected);
    TallyPartition(r.cards);
    if r.revealing != [] {
      PendingRevealIsDefault(r, 0);
      assert false;
    }
  }

  /** An ENDED round under the newer build is a fixed point: every event that can happen leaves it exactly as it is. */
  lemma EndedIsFrozen(r: Round, ev: Event)
    requires Inv(r) && r.state == Ended && Enabled(r, ev)
    ensures Step(Current, r, ev) == r
  {
    VictoryMeansAllCollected(r);
  }

  /**
   So the victory bonus is awarded at most once per round: once ENDED, any run
   of events at all, clicks during pending reveals included, ends at the same
   round, with the same state and score.
   */
  lemma {:induction false} BonusAwardedOnce(r: Round, events: seq<Event>)
    requires Inv(r) && r.state == Ended
    ensures Run(Current, r, events).Some? ==> Run(Current, r, events).value == r
    decreases |events|
  {
    if |events| > 0 && Enabled(r, events[0]) {
      EndedIsFrozen(r, events[0]);
      BonusAwardedOnce(r, events[1..]);
    }
  }

  /** The newer build's victory: with every card collected, one update ends the round and adds the step-table bonus. */
  lemma VictoryEndsRound(r: Round)
    requires Inv(r) && r.state == Idle && Count(r.collected) == r.numCardsTotal
    ensures Update(Current, r).state == Ended
    ensures Update(Current, r).score == r.score + Score.VictoryBonus(r.numMoves)
  {
    TallyPartition(r.cards);
  }

  /** The legacy build never awards the bonus and never ends: its victory condition compares `undefined` with a number. */
  lemma LegacyBonusNeverAwarded(r: Round)
    requires WellFormed(r)
    ensures !LegacyVictoryFires(r)
    ensures Update(Legacy, r).score == r.score
    ensures Update(Legacy, r).state != Ended || r.state == Ended
  {
  }

  // ---------------------------------------------------------------------
  // A flip guard that also counts pending reveals

  /** The guard with pending reveals counted: the card must be face down and not already on its way up, and fewer than two cards up or on their way. */
  predicate FlipAcceptedGuarded(r: Round, s: Slot)
    requires s < |r.cards|
  {
    r.cards[s].state == Default && s !in r.revealing && Count(r.flipped) + |r.revealing| < 2
  }

  function FlipGuarded(r: Round, s: Slot): (r': Round)
    requires WellFormed(r) && s < |r.cards|
    ensures WellFormed(r')
    ensures FlipAcceptedGuarded(r, s) ==> r' == Flip(r, s)
    ensures !FlipAcceptedGuarded(r, s) ==> r' == r
  {
    if FlipAcceptedGuarded(r, s) then r.(numMoves := r.numMoves + 1, revealing := r.revealing + [s]) else r
  }

  /** With no reveal pending, the two guards accept exactly the same clicks. */
  lemma GuardsAgreeWithoutPendingReveals(r: Round, s: Slot)
    requires s < |r.cards| && r.revealing == []
    ensures FlipAcceptedGuarded(r, s) <==> FlipAccepted(r, s)
  {
  }

  function StepGuarded(build: Build, r: Round, ev: Event): (r': Round)
    requires WellFormed(r) && Enabled(r, ev)
    ensures WellFormed(r')
  {
    match ev
    case Click(s) => FlipGuarded(r, s)
    case _ => Step(build, r, ev)
  }

  lemma GuardedClickKeepsInv(r: Round, s: Slot)
    requires Inv(r) && s < |r.cards|
    ensures Inv(FlipGuarded(r, s))
  {
    if FlipAcceptedGuarded(r, s) {
      var r' := FlipGuarded(r, s);
      assert r'.revealing == r.revealing + [s];
      assert NoDup(r'.revealing);
      assert forall i :: 0 <= i < |r'.revealing| ==> r'.cards[r'.revealing[i]].state == Default;
    }
  }

  /** With the corrected guard every event keeps the invariant, in any interleaving of clicks and timers. */
  lemma GuardedStepKeepsInv(build: Build, r: Round, ev: Event)
    requires Inv(r) && Enabled(r, ev)
    ensures Inv(StepGuarded(build, r, ev))
  {
    match ev
    case Click(s) => GuardedClickKeepsInv(r, s);
    case RevealDone => RevealKeepsInv(r);
    case Tick => TickKeepsInv(build, r);
    case ResolveDone => ResolveKeepsInv(r);
  }

  function RunGuarded(build: Build, r: Round, events: seq<Event>): Option<Round>
    requires WellFormed(r)
    decreases |events|
  {
    if |events| == 0 then Some(r)
    else if !Enabled(r, events[0]) then None
    else RunGuarded(build, StepGuarded(build, r, events[0]), events[1..])
  }

  /** With the corrected guard, at most two cards are flipped after any run at all. */
  lemma {:induction false} GuardedPlayKeepsInv(build: Build, r: Round, events: seq<Event>)
    requires Inv(r)
    ensures RunGuarded(build, r, events).Some? ==>
              && Inv(RunGuarded(build, r, events).value)
              && Count(RunGuarded(build, r, events).value.flipped) <= 2
    decreases |events|
  {
    if |events| > 0 && Enabled(r, events[0]) {
      GuardedStepKeepsInv(build, r, events[0]);
      GuardedPlayKeepsInv(build, StepGuarded(build, r, events[0]), events[1..]);
    }
  }
}

=== FILE: score.dfy ===
/**
 Scoring: the score accumulator of the HUD (legacy build) / GUI (newer
 build), and the end-of-round bonus step table on the number of moves.
 Rendering the score label is not modelled.
 */
module Score {

  /** `addPoints(amount)`: the score moves by exactly `amount`; there is no floor and no cap. */
  function AddPoints(score: int, amount: int): (r: int)
    ensures r - score == amount
  {
    score + amount
  }

  /** The score after a run of `addPoints` calls, applied left to right. */
  function Accumulate(score: int, amounts: seq<int>): int
    decreases |amounts|
  {
    if |amounts| == 0 then score else Accumulate(AddPoints(score, amounts[0]), amounts[1..])
  }

  /** The total of a run of point amounts, summed from the last one back. */
  function Sum(amounts: seq<int>): int
  {
    if |amounts| == 0 then 0 else Sum(amounts[..|amounts| - 1]) + amounts[|amounts| - 1]
  }

  lemma {:induction false} SumPrepend(a: int, amounts: seq<int>)
    ensures Sum([a] + amounts) == a + Sum(amounts)
    decreases |amounts|
  {
    if |amounts| > 0 {
      var last := |amounts| - 1;
      assert ([a] + amounts)[..last + 1] == [a] + amounts[..last];
      SumPrepend(a, amounts[..last]);
    }
  }

  /** The score is a pure reducer: a run of calls ends at the start score plus the total of the amounts. */
  lemma {:induction false} AccumulateIsSum(score: int, amounts: seq<int>)
    ensures Accumulate(score, amounts) == score + Sum(amounts)
    decreases |amounts|
  {
    if |amounts| > 0 {
      AccumulateIsSum(AddPoints(score, amounts[0]), amounts[1..]);
      assert amounts == [amounts[0]] + amounts[1..];
      SumPrepend(amounts[0], amounts[1..]);
    }
  }

  /**
   The victory bonus step table: under 30 moves 500, under 35 400, under 40
   300, under 45 200, under 50 100, and nothing from 50 moves on.
   */
  function VictoryBonus(numMoves: nat): (bonus: nat)
    ensures bonus % 100 == 0 && bonus <= 500
    ensures bonus == 0 <==> numMoves >= 50
    ensures bonus == 500 <==> numMoves < 30
  {
    if numMoves < 30 then 500
    else if numMoves < 35 then 400
    else if numMoves < 40 then 300
    else if numMoves < 45 then 200
    else if numMoves < 50 then 100
    else 0
  }

  /** An independent closed form: 100 points are lost for every started band of five moves past 25. */
  function BonusByBands(numMoves: nat): int
  {
    if numMoves < 30 then 500
    else if numMoves >= 50 then 0
    else 500 - 100 * ((numMoves - 25) / 5)
  }

  lemma BonusMatchesBands(numMoves: nat)
    ensures VictoryBonus(numMoves) == BonusByBands(numMoves)
  {
  }

  /** Fewer moves never earn a smaller bonus. */
  lemma BonusNonIncreasing(fewer: nat, more: nat)
    requires fewer <= more
    ensures VictoryBonus(fewer) >= VictoryBonus(more)
  {
  }

  /** The band edges. */
  lemma BonusEdges()
    ensures VictoryBonus(29) == 500 && VictoryBonus(30) == 400
    ensures VictoryBonus(34) == 400 && VictoryBonus(35) == 300
    ensures VictoryBonus(49) == 100 && VictoryBonus(50) == 0
  {
  }
}

=== FILE: shuffle.dfy ===
/**
 The Fisher-Yates shuffle of the legacy build. `Math.random()` is not
 modelled as a source of randomness: the caller supplies the sequence of
 values it returned, one per iteration, each in [0, 1).
 */
module Shuffling {

  /** `Math.floor(Math.random() * counter)`: always a position strictly below `counter`. */
  function SwapIndex(draw: real, counter: nat): (index: nat)
    requires 0.0 <= draw < 1.0
    requires counter > 0
    ensures index < counter
  {
    var scaled := draw * counter as real;
    assert 0.0 <= scaled < counter as real;
    scaled.Floor
  }

  /** Exchanges the items at positions `i` and `j`, through a temporary as the loop body does. */
  function Swap<T>(s: seq<T>, i: nat, j: nat): (r: seq<T>)
    requires i < |s| && j < |s|
    ensures |r| == |s|
    ensures r[i] == s[j] && r[j] == s[i]
    ensures forall k :: 0 <= k < |s| && k != i && k != j ==> r[k] == s[k]
    ensures multiset(r) == multiset(s)
  {
    var temp := s[i];
    s[i := s[j]][j := temp]
  }

  /** Every value handed in as a `Math.random()` result lies in [0, 1). */
  predicate ValidDraws(draws: seq<real>)
  {
    forall k :: 0 <= k < |draws| ==> 0.0 <= draws[k] < 1.0
  }

  /**
   `shuffle(array)`: counting down from the length, swaps the last unsettled
   position with a drawn position at or below it. The result is a permutation
   of the input, and the final position holds the item drawn first.
   */
  method Shuffle<T>(deck: seq<T>, draws: seq<real>) returns (r: seq<T>)
    requires |draws| == |deck|
    requires ValidDraws(draws)
    ensures |r| == |deck|
    ensures multiset(r) == multiset(deck)
    ensures |deck| > 0 ==> r[|deck| - 1] == deck[SwapIndex(draws[0], |deck|)]
  {
    r := deck;
    var counter := |deck|;
    while counter > 0
      invariant 0 <= counter <= |deck|
      invariant |r| == |deck|
      invariant multiset(r) == multiset(deck)
      invariant counter == |deck| ==> r == deck
      invariant counter < |deck| ==> r[|deck| - 1] == deck[SwapIndex(draws[0], |deck|)]
      decreases counter
    {
      var index := SwapIndex(draws[|deck| - counter], counter);
      counter := counter - 1;
      assert index <= counter;
      r := Swap(r, counter, index);
    }
  }
}

=== FILE: table.dfy ===
/**
 The match-resolution state machine of one round, as both builds run it:
 `js/memory.js` (legacy: Board, Card, HUD, with shared globals) and
 `src/js/memory.js` (newer: Table, Card, GUI, with an ENDED state). The
 shared globals become one immutable `Round` record, and each callback
 becomes a pure transition:

   Click(slot)   a click on a card: `Card.flip`, the guard and the move count;
   RevealDone    the 120 ms reveal timer of the oldest pending flip fires;
   Tick          one frame's `update` of the board/table;
   ResolveDone   the 2000 ms pair-resolution timer fires.

 Cards are named by their slot: their position in the card group, which is
 what object identity (`===`) distinguishes in the source.
 */
module Table {
  import opened Collections
  import opened Cards
  import Score

  type Slot = nat

  /** The two builds of the game. */
  datatype Build = Legacy | Current

  /** The table's DEFAULT (here `Idle`), LOCKED and, in the newer build only, ENDED states. */
  datatype TableState = Idle | Locked | Ended

  datatype Round = Round(
    cards: seq<Card>,
    flipped: Collection<Slot>,   // `flippedCards`
    collected: Collection<Slot>, // `collectedCards`
    revealing: seq<Slot>,        // cards whose reveal timer is pending, oldest first
    resolving: bool,             // the pair-resolution timer is pending
    numCardsTotal: nat,
    numMoves: nat,
    comboLength: nat,
    score: int,                  // the HUD / GUI score
    state: TableState)

  /** Every slot in the list names one of `n` cards. */
  predicate Refs(items: seq<Slot>, n: nat)
  {
    forall i :: 0 <= i < |items| ==> items[i] < n
  }

  /** Every card reference held by the round names one of its cards. */
  predicate WellFormed(r: Round)
  {
    Refs(r.flipped.items, |r.cards|) && Refs(r.collected.items, |r.cards|) && Refs(r.revealing, |r.cards|)
  }

  /** The round right after `create`: nothing flipped or collected, counters at zero. */
  function Start(cards: seq<Card>, numCardsTotal: nat): (r: Round)
    ensures WellFormed(r)
    ensures Count(r.flipped) == 0 && Count(r.collected) == 0 && r.revealing == []
    ensures r.state == Idle && !r.resolving && r.score == 0 && r.numMoves == 0 && r.comboLength == 0
  {
    Round(cards, Empty(), Empty(), [], false, numCardsTotal, 0, 0, 0, Idle)
  }

  // ---------------------------------------------------------------------
  // Card transitions

  /** The guard of `Card.flip`, evaluated at click time. */
  predicate FlipAccepted(r: Round, s: Slot)
    requires s < |r.cards|
  {
    r.cards[s].state == Default && Count(r.flipped) < 2
  }

  /**
   The guard looks only at the clicked card and at the cards whose reveal has
   completed: however many reveals are pending, including one for this very
   card, it decides the same way.
   */
  lemma GuardIgnoresPendingReveals(r: Round, s: Slot, pending: seq<Slot>)
    requires s < |r.cards|
    ensures FlipAccepted(r.(revealing := pending), s) == FlipAccepted(r, s)
    ensures FlipAccepted(r, s) ==> FlipAccepted(r.(revealing := r.revealing + [s]), s)
  {
  }

  /**
   `Card.flip`: an accepted click counts one move and starts the reveal timer;
   the card itself does not change until the timer fires. A rejected click
   changes nothing.
   */
  function Flip(r: Round, s: Slot): (r': Round)
    requires WellFormed(r) && s < |r.cards|
    ensures WellFormed(r')
    ensures FlipAccepted(r, s) ==> r'.numMoves == r.numMoves + 1 && r'.revealing == r.revealing + [s]
    ensures FlipAccepted(r, s) ==> r' == r.(numMoves := r'.numMoves, revealing := r'.revealing)
    ensures !FlipAccepted(r, s) ==> r' == r
  {
    if FlipAccepted(r, s) then r.(numMoves := r.numMoves + 1, revealing := r.revealing + [s]) else r
  }

  /**
   The reveal timer of the oldest pending flip: its card turns FLIPPED and is
   appended to `flippedCards`, whatever happened in between.
   */
  function CompleteReveal(r: Round): (r': Round)
    requires WellFormed(r) && |r.revealing| > 0
    ensures WellFormed(r')
    ensures r'.revealing == r.revealing[1..]
    ensures |r'.cards| == |r.cards| && r'.cards[r.revealing[0]].state == Flipped
    ensures forall k :: 0 <= k < |r.cards| && k != r.revealing[0] ==> r'.cards[k] == r.cards[k]
    ensures Count(r'.flipped) == Count(r.flipped) + 1 && Get(r'.flipped, Count(r.flipped)) == Some(r.revealing[0])
    ensures forall i :: 0 <= i < Count(r.flipped) ==> Get(r'.flipped, i) == Get(r.flipped, i)
    ensures r' == r.(revealing := r'.revealing, cards := r'.cards, flipped := r'.flipped)
  {
    var s := r.revealing[0];
    r.(revealing := r.revealing[1..],
       cards := r.cards[s := Reveal(r.cards[s])],
       flipped := Add(r.flipped, s))
  }

  /** `Card.collect`: a card not yet COLLECTED is appended to `collectedCards` and becomes COLLECTED; otherwise nothing happens. */
  function CollectCard(r: Round, s: Slot): (r': Round)
    requires WellFormed(r) && s < |r.cards|
    ensures WellFormed(r')
    ensures |r'.cards| == |r.cards| && r'.cards[s].state == Collected
    ensures r.cards[s].state == Collected ==> r' == r
    ensures r.cards[s].state != Collected ==> r'.collected == Add(r.collected, s)
    ensures forall k :: 0 <= k < |r.cards| && k != s ==> r'.cards[k] == r.cards[k]
    ensures r'.cards[s].key == r.cards[s].key
    ensures r' == r.(cards := r'.cards, collected := r'.collected)
  {
    if r.cards[s].state != Collected then
      r.(collected := Add(r.collected, s), cards := r.cards[s := MarkCollected(r.cards[s])])
    else r
  }

  /** How many times collecting `items` appends `s`: once when `s` is listed and not yet COLLECTED, never otherwise. */
  function Appended(r: Round, items: seq<Slot>, s: Slot): nat
  {
    if s in items && s < |r.cards| && r.cards[s].state != Collected then 1 else 0
  }

  /**
   `r'` holds `r`'s cards after `collect` on each listed card: a listed card is
   COLLECTED with its face and index kept, and every other card is untouched.
   */
  ghost predicate CollectedAsListed(r: Round, r': Round, items: seq<Slot>)
  {
    && |r'.cards| == |r.cards| && Refs(items, |r.cards|)
    && (forall i :: 0 <= i < |items| ==> r'.cards[items[i]] == MarkCollected(r.cards[items[i]]))
    && (forall k :: 0 <= k < |r.cards| && k !in items ==> r'.cards[k] == r.cards[k])
  }

  /**
   `r'`'s `collectedCards` is `r`'s plus each listed card not yet COLLECTED
   in `r`, appended exactly once even when it is listed twice.
   */
  ghost predicate AppendsListed(r: Round, r': Round, items: seq<Slot>)
  {
    forall s: Slot :: multiset(r'.collected.items)[s] == multiset(r.collected.items)[s] + Appended(r, items, s)
  }

  /** `r'` holds `r`'s cards after `flipBack` on each listed card, every other card untouched. */
  ghost predicate FlippedBackAsListed(r: Round, r': Round, items: seq<Slot>)
  {
    && |r'.cards| == |r.cards| && Refs(items, |r.cards|)
    && (forall i :: 0 <= i < |items| ==> r'.cards[items[i]] == FlipBack(r.cards[items[i]]))
    && (forall k :: 0 <= k < |r.cards| && k !in items ==> r'.cards[k] == r.cards[k])
  }

  /**
   The loop of `collectCards` over a list of cards: each listed card is
   COLLECTED afterwards, every other card is untouched, and `collectedCards`
   only grows, and only by listed cards (each exactly once, by
   `CollectAllAppends`).
   */
  function CollectAll(r: Round, items: seq<Slot>): (r': Round)
    requires WellFormed(r) && Refs(items, |r.cards|)
    ensures WellFormed(r')
    ensures |r'.cards| == |r.cards|
    ensures forall i :: 0 <= i < |items| ==> r'.cards[items[i]].state == Collected
    ensures forall k :: 0 <= k < |r.cards| && k !in items ==> r'.cards[k] == r.cards[k]
    ensures forall k :: 0 <= k < |r.cards| ==> r'.cards[k].key == r.cards[k].key
    ensures r.collected.items <= r'.collected.items
    ensures forall s :: s in r'.collected.items ==> s in r.collected.items || s in items
    ensures CollectedAsListed(r, r', items)
    ensures r' == r.(cards := r'.cards, collected := r'.collected)
    decreases |items|
  {
    if |items| == 0 then r
    else
      var r' := CollectAll(CollectCard(r, items[0]), items[1..]);
      CollectStep(r, items, r');
      r'
  }

  /** Collecting the first listed card and then the rest collects the whole list. */
  lemma CollectStep(r: Round, items: seq<Slot>, r': Round)
    requires WellFormed(r) && Refs(items, |r.cards|) && |items| > 0
    requires CollectedAsListed(CollectCard(r, items[0]), r', items[1..])
    ensures CollectedAsListed(r, r', items)
  {
    var x, rest, r0 := items[0], items[1..], CollectCard(r, items[0]);
    assert items == [x] + rest;
    forall i | 0 <= i < |items|
      ensures r'.cards[items[i]] == MarkCollected(r.cards[items[i]])
    {
      if i > 0 {
        assert items[i] == rest[i - 1];
      } else if x !in rest {
        assert r'.cards[x] == r0.cards[x];
      }
    }
  }

  /** Collecting a list appends each listed card not yet COLLECTED to `collectedCards` exactly once. */
  lemma {:induction false} CollectAllAppends(r: Round, items: seq<Slot>)
    requires WellFormed(r) && Refs(items, |r.cards|)
    ensures AppendsListed(r, CollectAll(r, items), items)
    decreases |items|
  {
    if |items| > 0 {
      var x, rest, r0 := items[0], items[1..], CollectCard(r, items[0]);
      var r' := CollectAll(r0, rest);
      CollectAllAppends(r0, rest);
      assert CollectAll(r, items) == r';
      forall s: Slot
        ensures multiset(r'.collected.items)[s] == multiset(r.collected.items)[s] + Appended(r, items, s)
      {
        CollectCardAppends(r, x, s);
        AppendedAfterFirst(r, items, s);
      }
    }
  }

  /** Whether the rest of the list appends `s` after its first card was collected, in terms of the whole list. */
  lemma AppendedAfterFirst(r: Round, items: seq<Slot>, s: Slot)
    requires WellFormed(r) && Refs(items, |r.cards|) && |items| > 0
    ensures Appended(r, items, s)
            == Appended(CollectCard(r, items[0]), items[1..], s) + (if s == items[0] && r.cards[s].state != Collected then 1 else 0)
  {
    var x, rest := items[0], items[1..];
    assert items == [x] + rest;
    if s != x {
      assert s in items <==> s in rest;
    }
  }

  /** Collecting one card appends it once when it was not yet COLLECTED and leaves every other count alone. */
  lemma CollectCardAppends(r: Round, x: Slot, s: Slot)
    requires WellFormed(r) && x < |r.cards|
    ensures multiset(CollectCard(r, x).collected.items)[s]
            == multiset(r.collected.items)[s] + (if s == x && r.cards[x].state != Collected then 1 else 0)
  {
    if r.cards[x].state != Collected {
      assert CollectCard(r, x).collected.items == r.collected.items + [x];
    }
  }

  /**
   The loop of `flipCardsBack`: each listed card goes through `flipBack`,
   every other card is untouched, and nothing else changes.
   */
  function FlipAllBack(r: Round, items: seq<Slot>): (r': Round)
    requires WellFormed(r) && Refs(items, |r.cards|)
    ensures WellFormed(r')
    ensures |r'.cards| == |r.cards|
    ensures forall i :: 0 <= i < |items| ==> r'.cards[items[i]] == FlipBack(r.cards[items[i]])
    ensures forall k :: 0 <= k < |r.cards| && k !in items ==> r'.cards[k] == r.cards[k]
    ensures r' == r.(cards := r'.cards)
    decreases |items|
  {
    if |items| == 0 then r
    else
      var s := items[0];
      FlipAllBack(r.(cards := r.cards[s := FlipBack(r.cards[s])]), items[1..])
  }

  // ---------------------------------------------------------------------
  // Board / table

  /** `compareCards`: two cards match when their faces are equal. */
  predicate CompareCards(a: Card, b: Card)
  {
    a.key == b.key
  }

  /** `collectCards`: collect the listed cards, extend the combo, and score 100 points per combo step; nothing else changes. */
  function CollectCards(r: Round, items: seq<Slot>): (r': Round)
    requires WellFormed(r) && Refs(items, |r.cards|)
    ensures WellFormed(r') && |r'.cards| == |r.cards|
    ensures r'.comboLength == r.comboLength + 1
    ensures r'.score == r.score + 100 * r'.comboLength
    ensures forall i :: 0 <= i < |items| ==> r'.cards[items[i]].state == Collected
    ensures r' == r.(cards := r'.cards, collected := r'.collected, comboLength := r'.comboLength, score := r'.score)
  {
    var r1 := CollectAll(r, items);
    var combo := r1.comboLength + 1;
    r1.(comboLength := combo, score := Score.AddPoints(r1.score, 100 * combo))
  }

  /**
   `collectCards` collects every listed card, leaves every other card alone,
   and appends each listed card not yet COLLECTED to `collectedCards` exactly
   once.
   */
  lemma CollectCardsOutcome(r: Round, items: seq<Slot>)
    requires WellFormed(r) && Refs(items, |r.cards|)
    ensures CollectedAsListed(r, CollectCards(r, items), items)
    ensures AppendsListed(r, CollectCards(r, items), items)
  {
    CollectAllAppends(r, items);
  }

  /** `flipCardsBack`: flip the listed cards back and break the combo; the score and everything else are untouched. */
  function FlipCardsBack(r: Round, items: seq<Slot>): (r': Round)
    requires WellFormed(r) && Refs(items, |r.cards|)
    ensures WellFormed(r') && |r'.cards| == |r.cards|
    ensures r'.comboLength == 0 && r'.score == r.score
    ensures forall i :: 0 <= i < |items| ==> r'.cards[items[i]].state != Flipped
    ensures FlippedBackAsListed(r, r', items)
    ensures r' == r.(cards := r'.cards, comboLength := 0)
  {
    FlipAllBack(r, items).(comboLength := 0)
  }

  /**
   The body of the resolution timer: compare the first two flipped cards;
   collect every flipped card on a match, flip every one back otherwise; then
   empty `flippedCards` and return the table to DEFAULT. When fewer than two
   cards are flipped, reading `.key` of `undefined` throws and the callback
   stops before changing anything.
   */
  function Resolve(r: Round): (r': Round)
    requires WellFormed(r)
    ensures WellFormed(r') && |r'.cards| == |r.cards|
    ensures !r'.resolving
    ensures Count(r.flipped) >= 2 ==> Count(r'.flipped) == 0 && r'.state == Idle
    ensures Count(r.flipped) < 2 ==> r' == r.(resolving := false)
    ensures Count(r.flipped) >= 2 && r.cards[r.flipped.items[0]].key == r.cards[r.flipped.items[1]].key ==>
              && r'.comboLength == r.comboLength + 1
              && r'.score == r.score + 100 * r'.comboLength
              && forall i :: 0 <= i < Count(r.flipped) ==> r'.cards[r.flipped.items[i]].state == Collected
    ensures Count(r.flipped) >= 2 && r.cards[r.flipped.items[0]].key != r.cards[r.flipped.items[1]].key ==>
              && r'.comboLength == 0
              && r'.score == r.score
              && forall i :: 0 <= i < Count(r.flipped) ==> r'.cards[r.flipped.items[i]].state != Flipped
    ensures r' == r.(cards := r'.cards, flipped := r'.flipped, collected := r'.collected,
                     comboLength := r'.comboLength, score := r'.score, state := r'.state, resolving := false)
  {
    match (Get(r.flipped, 0), Get(r.flipped, 1))
    case (Some(a), Some(b)) =>
      var r1 := if CompareCards(r.cards[a], r.cards[b])
                then CollectCards(r, r.flipped.items)
                else FlipCardsBack(r, r.flipped.items);
      r1.(flipped := Clear(r1.flipped), state := Idle, resolving := false)
    case _ => r.(resolving := false)
  }

  /**
   What the resolution does to the cards and to `collectedCards`, whatever
   the number of flipped cards: on a match every flipped card is collected,
   each one not yet COLLECTED appended exactly once; on a mismatch every
   flipped card goes through `flipBack` and `collectedCards` is untouched;
   in both, every card not in `flippedCards` is untouched.
   */
  lemma ResolveOutcome(r: Round)
    requires WellFormed(r)
    ensures Count(r.flipped) >= 2 && r.cards[r.flipped.items[0]].key == r.cards[r.flipped.items[1]].key ==>
              CollectedAsListed(r, Resolve(r), r.flipped.items) && AppendsListed(r, Resolve(r), r.flipped.items)
    ensures Count(r.flipped) >= 2 && r.cards[r.flipped.items[0]].key != r.cards[r.flipped.items[1]].key ==>
              FlippedBackAsListed(r, Resolve(r), r.flipped.items) && Resolve(r).collected == r.collected
  {
    if Count(r.flipped) >= 2 {
      CollectCardsOutcome(r, r.flipped.items);
    }
  }

  /** The pair check of `update`: only from DEFAULT with exactly two flipped cards; it locks and starts the resolution timer. */
  function PairCheck(r: Round): (r': Round)
    ensures (Count(r.flipped) == 2 && r.state == Idle) ==> r' == r.(state := Locked, resolving := true)
    ensures !(Count(r.flipped) == 2 && r.state == Idle) ==> r' == r
  {
    if Count(r.flipped) == 2 && r.state == Idle then r.(state := Locked, resolving := true) else r
  }

  /** The score after the victory bonus, added only when positive. */
  function AwardBonus(r: Round): (score: int)
    ensures score == r.score + Score.VictoryBonus(r.numMoves)
  {
    var bonus := Score.VictoryBonus(r.numMoves);
    if bonus > 0 then Score.AddPoints(r.score, bonus) else r.score
  }

  /** A JavaScript value as far as the legacy victory check needs one. */
  datatype JsValue = Undefined | Number(n: int)

  /**
   `collectedCards.length` in the legacy build. A collection keeps its items
   in `items` and exposes their number through `count()`; it has no `length`
   property, so the lookup yields `undefined`.
   */
  function LegacyCollectedLength(c: Collection<Slot>): (v: JsValue)
    ensures v != Number(Count(c))
  {
    Undefined
  }

  /** The legacy victory condition, `collectedCards.length === numCardsTotal`, as written. */
  predicate LegacyVictoryFires(r: Round): (fires: bool)
    ensures !fires
  {
    LegacyCollectedLength(r.collected) == Number(r.numCardsTotal)
  }

  /** The newer build's victory condition: not ENDED yet and every card collected. */
  predicate VictoryFires(r: Round)
  {
    r.state != Ended && Count(r.collected) == r.numCardsTotal
  }

  /** The victory check of `update`, per build. */
  function VictoryCheck(build: Build, r: Round): (r': Round)
    ensures build == Current && VictoryFires(r) ==>
              r'.state == Ended && r'.score == r.score + Score.VictoryBonus(r.numMoves)
    ensures build == Current && !VictoryFires(r) ==> r' == r
    ensures build == Legacy ==> r'.state == r.state
    ensures r' == r.(state := r'.state, score := r'.score)
  {
    match build
    case Legacy =>
      if LegacyVictoryFires(r) then r.(score := AwardBonus(r)) else r
    case Current =>
      if VictoryFires(r) then r.(score := AwardBonus(r), state := Ended) else r
  }

  /**
   `update`: the pair check, then the victory check. Under the newer build an
   ENDED table is left exactly as it is.
   */
  function Update(build: Build, r: Round): (r': Round)
    requires WellFormed(r)
    ensures WellFormed(r')
    ensures r.state == Ended && build == Current ==> r' == r
    ensures r'.cards == r.cards && r'.flipped == r.flipped && r'.collected == r.collected
    ensures r'.numMoves == r.numMoves && r'.comboLength == r.comboLength && r'.revealing == r.revealing
    ensures r'.state == Locked <==> (r.state == Locked || (r.state == Idle && Count(r.flipped) == 2)) && !(build == Current && VictoryFires(PairCheck(r)))
  {
    VictoryCheck(build, PairCheck(r))
  }

  // ---------------------------------------------------------------------
  // Events

  datatype Event = Click(slot: Slot) | RevealDone | Tick | ResolveDone

  /**
   When an event can happen: a click hits an existing card; a reveal needs a
   pending reveal timer; the resolution needs its timer pending and, since it
   fires 2000 ms after the lock while every reveal fires 120 ms after its
   click and no click is accepted while two cards are flipped, no reveal
   still pending.
   */
  predicate Enabled(r: Round, ev: Event)
  {
    match ev
    case Click(s) => s < |r.cards|
    case RevealDone => |r.revealing| > 0
    case Tick => true
    case ResolveDone => r.resolving && r.revealing == []
  }

  function Step(build: Build, r: Round, ev: Event): (r': Round)
    requires WellFormed(r) && Enabled(r, ev)
    ensures WellFormed(r')
    ensures |r'.cards| == |r.cards| && r'.numCardsTotal == r.numCardsTotal
    ensures r'.numMoves == r.numMoves + (if ev.Click? && FlipAccepted(r, ev.slot) then 1 else 0)
    ensures || r'.score == r.score
            || (ev == ResolveDone && r'.score == r.score + 100 * r'.comboLength)
            || (ev == Tick && build == Current && r'.state == Ended && r.state != Ended
                && r'.score == r.score + Score.VictoryBonus(r.numMoves))
  {
    match ev
    case Click(s) => Flip(r, s)
    case RevealDone => CompleteReveal(r)
    case Tick => Update(build, r)
    case ResolveDone => Resolve(r)
  }

  /** The round after a sequence of events, or `None` if one of them could not happen at its point. */
  function Run(build: Build, r: Round, events: seq<Event>): (result: Option<Round>)
    requires WellFormed(r)
    ensures result.Some? ==> WellFormed(result.value)
    decreases |events|
  {
    if |events| == 0 then Some(r)
    else if !Enabled(r, events[0]) then None
    else Run(build, Step(build, r, events[0]), events[1..])
  }
}
